=== FILE: README.md ===
# safeHerr session controller, in Dafny

This project models the part of the safeHerr web page (`frontend/app.js`)
that has state. That part is three timer-driven flows plus two score
estimators:

- **SOS**: `triggerSOS` opens the modal and starts a 10-second countdown on a
  one-second interval. On the tick where the counter reaches zero,
  `confirmSOS` sends the alert: a `sos-trigger` socket emit, a POST to
  `/api/sos/send`, a toast and an `sos` activity line. `cancelSOS` clears the
  interval and closes the modal.
- **Location sharing**: `setShareDuration` picks the duration.
  `startSharing` fixes an end time, unless the duration is 0, and starts a
  30-second ticker. Until the end time has passed, each tick emits
  `share-location` with the position and the duration current at that tick.
  After it, the tick calls `stopSharing` instead.
- **Journey**: `toggleJourney` stops the current journey if there is one,
  and otherwise calls `startJourney`. `startJourney` refuses an empty
  destination; otherwise it records the journey, starts a one-second ticker
  and notifies contacts. The ticker (`updateJourneyStats`) shows the elapsed
  time as `HH:MM:SS` and a journey safety score
  (`calculateJourneySafetyScore`).
- **Dashboard assessment** (`analyzeSafety`): the score, status, colour,
  factors and header indicator derived from the hour and one random draw.

The page state is an immutable `Session.State`. It holds the position, the
live interval timers (by handle), the handle the next `setInterval`
returns, the three global handle variables `sosInterval`, `shareInterval`
and `journeyInterval`, and the widgets those flows write. Every handler
returns a `Step`: the next state and the outputs it produced, in order.
The outputs are socket emits, API posts, activity log lines and toasts.

`Controller` folds a sequence of events over the state. The events are
user actions, position fixes and firings of a timer by its handle. A
firing of a cleared handle does nothing. Each timer carries the state its
callback closes over: the countdown local to one `triggerSOS` call, and
the end time fixed by one `startSharing` call.

The handle variables are modelled as the page has them. A second
`triggerSOS` or `startSharing` overwrites the variable without clearing
the timer it named. The start operations therefore take a `Restart`
parameter:

- `Overwrite` is the page as written.
- `ClearFirst` clears the old timer before scheduling the new one.

The lifecycle modules prove what each policy leads to: for the page as
written, the sessions that leak a timer; for the clearing start, bounds over
every event sequence (at most one alert per trigger or confirm, at most one
live share ticker, and a stop that ends the broadcasts).
The journey needs no such parameter: the toggle is its only entry, and
`JourneyLifecycle` proves that at most one journey ticker is ever live.

The clock, the hour of day and the random draws are parameters:

- the time in milliseconds;
- `Hour` in 0..23;
- the journey jitter `Math.floor(Math.random() * 10)` as 0..9;
- the dashboard draw `Math.random() > 0.7` as a `bool`.

ISO timestamp strings are represented by the millisecond reading they
render.

Some behaviours of the code worth noting:

- A destination is refused only when it is the empty string. A blank string
  of spaces is accepted (`!destination`, `frontend/app.js:624`).
- A refused start does not leave the page unchanged. The journey
  labels still switch to "Active", because `toggleJourney` sets them after
  `startJourney` returns, whatever happened (`JourneyLifecycle.RefusedStartShowsActive`).
- The late-night band of both estimators covers hours 22-23 and 0-4.
  The dashboard's early-morning branch (hours 0-5) comes second, so only
  hour 5 reaches it.
- Neither elapsed time nor clock readings are assumed to increase. A negative
  elapsed time is split the way JavaScript's truncating `%` and flooring
  `Math.floor` do it.

## Model

| member | source | states |
|---|---|---|
| Session.Schedule | frontend/app.js:469 | `setInterval` adds the timer under a handle no live timer has, and stores that handle in the variable of the timer's kind; the other kinds' timers are untouched |
| Session.ClearInterval | frontend/app.js:480 | `clearInterval` removes exactly the timer the handle names, if any, and keeps every other timer as it was |
| Sos.Trigger | frontend/app.js:461-477 | opens the modal showing 10 and schedules a fresh countdown at 10, named by `sosInterval`. As written every older timer survives; with the clearing start only the old `sosInterval` timer goes. Sharing and journey state are unchanged and nothing is emitted |
| Sos.Tick | frontend/app.js:469-476 | a tick lowers that countdown by one and shows it. Above zero it emits nothing. At zero or below it sends the alert and clears the timer `sosInterval` names, which need not be the ticking one |
| Sos.Confirm | frontend/app.js:479-510 | clears the timer `sosInterval` names and closes the modal. It emits the alert: socket emit, API post, danger toast and `sos` log line, all carrying the same stamped current position |
| Sos.AlertCounts | frontend/app.js:493-509 | an alert is exactly one socket emit, one API post and one SOS log line, with no share or journey emit |
| Sos.Cancel | frontend/app.js:512-516 | clears the timer `sosInterval` names and closes the modal. The only output is a notice |
| SosLifecycle.TrackedCountdown | frontend/app.js:466-480 | a countdown named by `sosInterval` stays silent while its counter stays above zero. It alerts once, from the position of that moment, on the tick that brings it to zero; it is then cleared and later firings do nothing |
| SosLifecycle.SosTiming | frontend/app.js:461-510 | after one trigger, ticks one to nine only count down. The tenth sends the alert and closes the modal, so ten or more ticks give exactly one emit, one post and one log line, and fewer give none |
| SosLifecycle.CancelSilences | frontend/app.js:512-516 | a cancel before the tenth tick means nothing is ever sent, however often the handle fires afterwards |
| SosLifecycle.UntrackedCountdown | frontend/app.js:469-476 | a countdown that `sosInterval` no longer names counts down the same way and alerts on its last tick, but the confirm clears another handle, so it stays live |
| SosLifecycle.LeakedCountdown | frontend/app.js:469-476 | such a countdown, once at one or below, sends a full alert on every firing and stays live |
| SosLifecycle.OrphanedCountdown | frontend/app.js:469-476 | a full orphaned countdown is silent for nine ticks and alerts on the tenth and on every tick after it |
| SosLifecycle.DoubleTriggerThenCancel | frontend/app.js:469 | trigger, trigger, cancel: the second countdown is cleared, while the first is still live at 10 and unreachable from `sosInterval` |
| SosLifecycle.CancelledDoubleTriggerStillAlerts | frontend/app.js:461-516 | as written, trigger, trigger, cancel and then n ≥ 10 firings of the first handle send n − 9 alerts |
| SosLifecycle.ClearFirstRunKeepsSingleCountdown | frontend/app.js:469 | with the clearing trigger, any event sequence keeps at most one countdown live, and it is the one `sosInterval` names |
| SosLifecycle.QuietRun | frontend/app.js:466-510 | with no countdown live, a session with no trigger or confirm sends no part of an alert |
| SosLifecycle.CancelIsFinal | frontend/app.js:512-516 | when at most one countdown is live, a cancel ends the alerts: until the next trigger or confirm, nothing is sent |
| SosLifecycle.ClearFirstDoubleTriggerCancelled | frontend/app.js:461-516 | with the clearing trigger, trigger, trigger, cancel sends nothing, however long the first handle keeps firing |
| SosLifecycle.ClearFirstAlertStep | frontend/app.js:461-516 | with the clearing trigger, each event sends an alert part only if it is a trigger or confirm or fires the countdown `sosInterval` names, which that alert then clears |
| SosLifecycle.ClearFirstAlertBound | frontend/app.js:461-516 | with the clearing trigger, over any event sequence the emits, posts and SOS log lines sent, plus the countdown still pending, are at most what was pending before plus the triggers and confirms |
| SosLifecycle.ClearFirstAlertsAtMostRequested | frontend/app.js:461-516 | with the clearing trigger, from the page as loaded, any session, whatever journey ticks, share ticks and position fixes fall between the countdown's ticks, sends at most one emit, one post and one SOS log line per trigger or confirm |
| SosLifecycle.OverwriteOutrunsRequests | frontend/app.js:469 | as written, trigger, trigger, cancel and twelve or more firings of the first handle ask for two alerts and send more than two emits |
| Sharing.SetDuration | frontend/app.js:553-561 | only the duration changes, and nothing is emitted |
| Sharing.EndTime | frontend/app.js:566-568 | there is no end time exactly when the duration is 0; otherwise the end time is the start time plus the duration in minutes |
| Sharing.Expired | frontend/app.js:573 | the ticker's test `endTime && new Date() > endTime`; `Sharing.ExpiryAfterDuration` states what it means for a started share |
| Sharing.ExpiryAfterDuration | frontend/app.js:566-573 | a share started at time t has expired at a later tick exactly when its duration d is not 0 and more than d minutes have passed since t; a tick at the end instant has not expired |
| Sharing.StartNotice | frontend/app.js:590 | the start notice's message; `Sharing.StartNoticeNamesDuration` states its form |
| Sharing.StartNoticeNamesDuration | frontend/app.js:590 | the notice reads "Sharing for until you arrive" for duration 0; otherwise "Sharing for ", the duration's canonical decimal text, then " minutes" |
| Sharing.Start | frontend/app.js:563-593 | schedules a fresh ticker holding that end time, named by `shareInterval`. As written older timers survive; with the clearing start only the old `shareInterval` timer goes. Outputs are the start notice and the `checkin` log line with the duration, with no broadcast |
| Sharing.Tick | frontend/app.js:571-588 | past its end time a tick is exactly `stopSharing`. Otherwise it changes nothing and broadcasts the current position with the duration current at this tick |
| Sharing.Stop | frontend/app.js:595-598 | clears the timer `shareInterval` names, leaves everything else as it was, and only shows a notice |
| SharingLifecycle.LeadingUnexpired | frontend/app.js:573 | the number of firings before the first expired one: all earlier firings are unexpired, the next one has expired, and with no end time it is all of them |
| SharingLifecycle.Broadcasting | frontend/app.js:578-587 | firings before the end time change nothing; the i-th broadcast carries the i-th clock reading and the current duration |
| SharingLifecycle.TrackedTicker | frontend/app.js:571-588 | a ticker named by `shareInterval` broadcasts once per firing before its end time has passed. The first later firing stops the share, and the ones after it do nothing |
| SharingLifecycle.SharingTiming | frontend/app.js:563-598 | start, then firings: the count of broadcasts equals the firings before the end time. An expired share has lost its ticker, and a duration of 0 broadcasts on every firing and keeps its ticker |
| SharingLifecycle.PeriodicFirings | frontend/app.js:566-588 | firings every 30 seconds against an end time k periods away: exactly the first k are unexpired |
| SharingLifecycle.TimedShareBroadcastCount | frontend/app.js:566-588 | a d-minute share firing every 30 seconds broadcasts min(firings, 2d) times, and stops after the 2d-th |
| SharingLifecycle.ChangeThenFire | frontend/app.js:553-588 | a duration change followed by an unexpired firing broadcasts the new duration |
| SharingLifecycle.TickUsesCurrentDuration | frontend/app.js:563-588 | after start and a duration change, the broadcast carries the new duration, while the ticker keeps the end time fixed at the start |
| SharingLifecycle.StartThenStop | frontend/app.js:563-598 | start then stop: the new ticker is cleared, older timers are kept, and nothing was broadcast |
| SharingLifecycle.DoubleStartThenStop | frontend/app.js:571 | start, start, stop: the second ticker is cleared, while the first is still live and unreachable from `shareInterval` |
| SharingLifecycle.StoppedDoubleStartStillBroadcasts | frontend/app.js:563-598 | as written, with duration 0, start, start, stop and then n firings of the first handle broadcast n times |
| SharingLifecycle.ClearFirstRunKeepsSingleTicker | frontend/app.js:571 | with the clearing start, any event sequence keeps at most one share ticker live, and it is the one `shareInterval` names |
| SharingLifecycle.QuietRun | frontend/app.js:571-588 | with no ticker live, a session with no start broadcasts nothing |
| SharingLifecycle.StopIsFinal | frontend/app.js:595-598 | when at most one ticker is live, a stop ends the broadcasts until the next start |
| SharingLifecycle.ClearFirstDoubleStartStopped | frontend/app.js:563-598 | with the clearing start, start, start, stop broadcasts nothing, however long the first handle keeps firing |
| Journeys.Start | frontend/app.js:621-655 | an empty destination changes nothing and only shows the error notice. Otherwise the journey is recorded with the start time and the current position, and a fresh ticker is named by `journeyInterval`. The outputs are, in order, the notice, one `journey-started` emit and the `journey` log line |
| Journeys.Stop | frontend/app.js:657-666 | clears the ticker `journeyInterval` names and forgets the journey. It logs the completion with the destination and the position at the stop |
| Journeys.Toggle | frontend/app.js:604-619 | with a journey on, it stops it and clears its ticker, and the labels read Inactive. Otherwise it starts one, or refuses an empty destination with state unchanged, and the labels read Active in both cases. SOS and sharing state are unchanged |
| Journeys.UpdateStats | frontend/app.js:668-686 | with no journey nothing changes. Otherwise the elapsed time since the start and a journey score in [75, 100] are recorded, and nothing else changes |
| Journeys.TimeDisplay | frontend/app.js:676-677 | the `journeyTime` text exists once an elapsed time is recorded and has at least eight characters; below 100 hours it is exactly `HH:MM:SS` with two digits per field, and the fields read back as the hours, minutes and seconds of the elapsed time |
| Journeys.TickDisplaysElapsed | frontend/app.js:671-677 | after a tick of a journey less than 100 hours old, the recorded elapsed time is the time since the start, and the time display is eight characters reading back as its hours, minutes and seconds |
| JourneyLifecycle.AtMostOneTicker | frontend/app.js:636 | under the journey invariant at most one journey ticker is live, and while a journey is on it is the one `journeyInterval` names |
| JourneyLifecycle.ApplyKeepsJourneyTracked | frontend/app.js:604-666 | every event, under either restart policy of the other flows, keeps a journey ticker live exactly while a journey is on, and only at `journeyInterval` |
| JourneyLifecycle.RunKeepsJourneyTracked | frontend/app.js:604-666 | any event sequence keeps that invariant |
| JourneyLifecycle.SingleJourneyTicker | frontend/app.js:604-666 | from the page as loaded, whatever happens, there is never more than one journey ticker, and there is one exactly while a journey is on |
| JourneyLifecycle.ToggleTwice | frontend/app.js:604-666 | start then stop: no journey and no ticker are left, the labels read Inactive, contacts were notified once, and the completion was logged at the position of the stop |
| JourneyLifecycle.ToggleThrice | frontend/app.js:604-666 | start, stop, start: the second journey runs on a fresh ticker, the only one live, and contacts were notified twice |
| JourneyLifecycle.StartThenTick | frontend/app.js:636-639 | the first firing after a start refreshes the displays of the journey just started and emits nothing |
| JourneyLifecycle.TickShowsElapsed | frontend/app.js:668-686 | a tick after a start records the time since the start and a score in [75, 100], and emits nothing |
| JourneyLifecycle.RefusedStartShowsActive | frontend/app.js:604-627 | a toggle with an empty destination from the off side is refused with only the error notice, yet the labels read Active, and the next toggle is refused again |
| Elapsed.JsRem | frontend/app.js:673-674 | JavaScript's `%`: the dividend minus the remainder is a multiple of the divisor, the remainder is smaller than the divisor in magnitude, and it has the sign of the dividend |
| Elapsed.JsRemUnique | frontend/app.js:673-674 | those three properties fix the remainder: any value meeting them is `JsRem` |
| Elapsed.Split | frontend/app.js:671-674 | for a non-negative elapsed time, minutes and seconds lie in 0..59 and hours are non-negative; for a negative one all fields are non-positive |
| Elapsed.SplitRecomposes | frontend/app.js:671-674 | for elapsed e ≥ 0, hours·3600 + minutes·60 + seconds equals the whole seconds in e |
| Elapsed.ClockTextRoundTrip | frontend/app.js:676-677 | below 100 hours the time display is exactly `HH:MM:SS`, and reading its digit pairs back gives the split |
| Elapsed.ClockText | frontend/app.js:676-677 | the time display joins the three padded fields with colons, so it has at least eight characters; `Elapsed.ClockTextRoundTrip` gives its exact form |
| Elapsed.Field | frontend/app.js:677 | `toString().padStart(2, '0')` of one field has at least two characters, and for a value in 0..99 it is exactly two digits reading back as the value |
| Text.IntToString | frontend/app.js:677 | `toString` of an integer is canonical decimal digits (at least one, no leading zero except for 0 itself) that read back as its magnitude, with a leading `-` when it is negative |
| Text.CanonicalDecimal | frontend/app.js:677 | canonical digit text is determined by its value |
| Text.ToStringUnique | frontend/app.js:677 | for a non-negative value, `IntToString` is the only canonical digit text that denotes it |
| Text.DecimalRoundTrip | frontend/app.js:677 | the decimal digits of n read back as n |
| Text.PadStart | frontend/app.js:677 | `padStart` keeps the string as the suffix and fills up to the width with the pad character |
| Text.TwoDigitsRoundTrip | frontend/app.js:677 | a number below 100, padded to two digits, is two digits that read back as the number |
| Safety.Clamp | frontend/app.js:700 | the clamped value lies in the bounds, equals the input when it is in them, and is the nearer bound otherwise |
| Safety.JourneyScore | frontend/app.js:688-701 | the journey score lies in [75, 100]: 75 + jitter late at night, otherwise 95 + jitter capped at 100. It reaches 95 exactly when it is not late at night |
| Safety.AnalyzeSafety | frontend/app.js:220-275 | the score is one of 100, 90, 70, 60, 50, fixed by the hour band and the low-traffic draw. Each status holds exactly in its band (late night, hour 5, daytime), the low-traffic factor appears exactly when drawn, and the header reads High Risk exactly when the score is below 60, which is hour 5 with low traffic |
| Safety.EarlyMorningHeaderDisagrees | frontend/app.js:233-275 | at 05:00 without the low-traffic draw the status says "High Risk: Early Morning" while the header indicator says Safe Zone |
| Controller.FireTimer | frontend/app.js:469-476 | a firing of a cleared handle does nothing; a live one runs the callback of its kind: the SOS countdown (`frontend/app.js:469-476`), the share ticker (`frontend/app.js:571-588`) or the journey ticker (`frontend/app.js:636-639`); no callback issues handles or moves the user |
| Controller.ClearedTimerIsSilent | frontend/app.js:512-516 | once a handle is cleared, any number of its firings change nothing and emit nothing |

## Left out

- The map widget, markers, routes, navigation, menus, card and list
  templating, and the HTML of toasts and factor chips are view code. Toasts
  are kept as outputs with their level, title and message; of the factor chips
  only the computed `factors` array is modelled, as `Factor` values; the two
  fixed chips "Police Nearby" and "Well Lit Area" (`frontend/app.js:263-264`)
  are not.
- The socket connection, `fetch` and geolocation are external I/O. Emits and
  the SOS POST are outputs. A position fix is the `Relocate` event, which
  replaces the position (`frontend/app.js:100-101`, and the fallback at
  `frontend/app.js:117`). The POST's response is not modelled, because its
  result is only logged to the console.
- The simulated journey distance and its `toFixed(1)` are floating point.
- `checkSafetyCheckpoints` appends random checkpoints to the page. It holds
  no state the flows read.
- The alarm sound of `confirmSOS` is audio output only.
- The second `shareLiveLocation` near the end of `app.js` shadows the first
  and calls itself without end. Only the share modal's opening depends on
  it, and the modal's open state is not modelled.
- The selected-option highlight of `setShareDuration` is view state; it
  reads the global `event`.
- Handles are issued as 1, 2, 3, … from a counter that only the three
  flows' `setInterval` calls advance. In a browser the numbering differs,
  and `showToast`'s `setTimeout` (`frontend/app.js:896-899`) draws ids from the
  same pool. Where a property names `h + 1` (`SosLifecycle.DoubleTriggerThenCancel`,
  `SharingLifecycle.DoubleStartThenStop`, `JourneyLifecycle.ToggleThrice`),
  that is the next handle the model issues after `h`; only its freshness
  matters, not its value.
- The `Date` objects of `startTime` and `endTime` are their millisecond
  readings, and the ISO timestamps in messages are the reading they render.
- Journeys.UpdateStats: records the elapsed milliseconds instead of the
  padded text, because the text is a function of them.
  `Journeys.TimeDisplay` renders it, and `Journeys.TickDisplaysElapsed`
  states that after a tick the text reads back as the split elapsed time.
- Elapsed.ClockTextRoundTrip: covers elapsed times below 100 hours.
  From 100 hours on, the hours field is longer than two digits, and the
  only promise kept is the minimum length.

## Findings

| source | as written | input that shows it | evidently intended | confidence | as-written member | corrected member |
|---|---|---|---|---|---|---|
| frontend/app.js:469 | `triggerSOS` assigns `sosInterval` without clearing the countdown it named, and `confirmSOS`/`cancelSOS` clear only the handle in the variable | trigger SOS twice, cancel, then let 10 or more seconds pass; whether a second trigger is reachable while the modal is open depends on markup that is not part of the source | cancelling stops every pending alert, and one trigger alerts at most once | not executed | SosLifecycle.CancelledDoubleTriggerStillAlerts | SosLifecycle.ClearFirstDoubleTriggerCancelled |
| frontend/app.js:571 | `startSharing` assigns `shareInterval` without clearing the ticker it named, and `stopSharing` clears only the handle in the variable | with duration "until you arrive", start sharing twice, stop, then wait 30 seconds; the share modal is the only way to start, and whether the page can open it twice depends on markup that is not part of the source (see "Left out") | stopping ends all location broadcasts | not executed | SharingLifecycle.StoppedDoubleStartStillBroadcasts | SharingLifecycle.ClearFirstDoubleStartStopped |

In the first row the orphaned countdown does more than alert once. After
its tenth tick its counter stays at zero or below, and `confirmSOS` clears
the other handle, so the alert is sent again on every later second
(`SosLifecycle.LeakedCountdown`). The corrected trigger clears the previous
countdown first. Under it, at most one countdown is ever live
(`SosLifecycle.ClearFirstRunKeepsSingleCountdown`), and a cancel is final
(`SosLifecycle.CancelIsFinal`). From the page as loaded, any session, with
whatever journey ticks, share ticks and position fixes fall between the
countdown's ticks, then sends at most one alert per trigger or confirm
(`SosLifecycle.ClearFirstAlertsAtMostRequested`); as written, trigger,
trigger, cancel already sends more than the two alerts it asked for
(`SosLifecycle.OverwriteOutrunsRequests`). The sharing fix and its proofs follow the same
pattern (`SharingLifecycle.ClearFirstRunKeepsSingleTicker`,
`SharingLifecycle.StopIsFinal`).

=== FILE: controller.dfy ===
/** The page's event loop: user actions, position fixes and interval timer
    firings, applied one at a time. Callbacks never overlap, so a session is
    a sequence of events folded over the state, outputs concatenated. */
module Controller {
  import opened Session
  import Safety
  import Sos
  import Sharing
  import Journeys

  /** What a timer callback reads from the environment: the clock in
      milliseconds, its hour of day, and the journey score's random jitter. */
  datatype Clock = Clock(now: int, hour: Safety.Hour, jitter: Safety.Jitter)

  datatype Event =
    | TriggerSos
    | ConfirmSos(now: int)
    | CancelSos
    | SetShareDuration(minutes: int)
    | StartSharing(now: int)
    | StopSharing
    | ToggleJourney(destination: string, now: int)
    | Relocate(position: Coordinate)
    | Fire(handle: nat, clock: Clock)

  /** Timer `h` fires: a cleared handle does nothing; a live one runs the
      callback of its kind. No callback issues handles or moves the user. */
  function FireTimer(s: State, h: nat, clock: Clock): (r: Step)
    requires Valid(s)
    ensures Valid(r.next)
    ensures h !in s.timers ==> r == Step(s, [])
    ensures r.next.nextHandle == s.nextHandle && r.next.userLocation == s.userLocation
    ensures forall k :: k in r.next.timers ==> k in s.timers
  {
    if h !in s.timers then Step(s, [])
    else match s.timers[h]
      case SosCountdown(_) => Sos.Tick(s, h, clock.now)
      case ShareTicker(_) => Sharing.Tick(s, h, clock.now)
      case JourneyTicker =>
        var t := Journeys.UpdateStats(s, clock.now, clock.hour, clock.jitter);
        ValidFrame(s, t);
        Step(t, [])
  }

  /** One event. `p` says how the two restartable flows treat a timer their
      handle variable still names. */
  function Apply(s: State, e: Event, p: Restart): (r: Step)
    requires Valid(s)
    ensures Valid(r.next)
    ensures r.next.nextHandle >= s.nextHandle
  {
    match e
    case TriggerSos => Sos.Trigger(s, p)
    case ConfirmSos(now) => Sos.Confirm(s, now)
    case CancelSos => Sos.Cancel(s)
    case SetShareDuration(minutes) => Sharing.SetDuration(s, minutes)
    case StartSharing(now) => Sharing.Start(s, now, p)
    case StopSharing => Sharing.Stop(s)
    case ToggleJourney(destination, now) => Journeys.Toggle(s, destination, now)
    case Relocate(position) => Step(s.(userLocation := position), [])
    case Fire(h, clock) => FireTimer(s, h, clock)
  }

  /** `Apply` as a value: the dispatcher the event loop folds. States that
      are not `Valid` never arise; on them it does nothing. */
  function Dispatch(p: Restart): (State, Event) -> Step {
    (s: State, e: Event) => if Valid(s) then Apply(s, e, p) else Step(s, [])
  }

  /** A sequence of events applied in order by `step`, outputs concatenated. */
  function Fold(s: State, events: seq<Event>, step: (State, Event) -> Step): (r: Step)
    decreases |events|
  {
    if events == [] then Step(s, [])
    else
      var a := step(s, events[0]);
      var b := Fold(a.next, events[1..], step);
      Step(b.next, a.out + b.out)
  }

  lemma {:induction false} FoldAppend(s: State, a: seq<Event>, b: seq<Event>, step: (State, Event) -> Step)
    ensures var ra := Fold(s, a, step);
            var rb := Fold(ra.next, b, step);
            Fold(s, a + b, step) == Step(rb.next, ra.out + rb.out)
    decreases |a|
  {
    if a == [] {
      assert a + b == b;
      assert [] + Fold(s, b, step).out == Fold(s, b, step).out;
    } else {
      var first := step(s, a[0]);
      assert (a + b)[0] == a[0];
      assert (a + b)[1..] == a[1..] + b;
      FoldAppend(first.next, a[1..], b, step);
      var ra := Fold(first.next, a[1..], step);
      var rb := Fold(ra.next, b, step);
      assert first.out + (ra.out + rb.out) == (first.out + ra.out) + rb.out;
    }
  }

  lemma {:induction false} RunValid(s: State, events: seq<Event>, p: Restart)
    requires Valid(s)
    ensures Valid(Fold(s, events, Dispatch(p)).next)
    decreases |events|
  {
    if events != [] {
      var first := Apply(s, events[0], p);
      RunValid(first.next, events[1..], p);
    }
  }

  function Run(s: State, events: seq<Event>, p: Restart): (r: Step)
    requires Valid(s)
    ensures Valid(r.next)
  {
    RunValid(s, events, p);
    Fold(s, events, Dispatch(p))
  }

  lemma RunAppend(s: State, a: seq<Event>, b: seq<Event>, p: Restart)
    requires Valid(s)
    ensures var ra := Run(s, a, p);
            var rb := Run(ra.next, b, p);
            Run(s, a + b, p) == Step(rb.next, ra.out + rb.out)
  {
    FoldAppend(s, a, b, Dispatch(p));
  }

  /** The firings of timer `h` at the given clock readings. */
  function Ticks(h: nat, clocks: seq<Clock>): (r: seq<Event>)
    ensures |r| == |clocks|
    ensures forall i :: 0 <= i < |clocks| ==> r[i] == Fire(h, clocks[i])
  {
    seq(|clocks|, i requires 0 <= i < |clocks| => Fire(h, clocks[i]))
  }

  /** Firings of a timer that is no longer live change nothing. */
  lemma {:induction false} ClearedTimerIsSilent(s: State, h: nat, clocks: seq<Clock>, p: Restart)
    requires Valid(s) && h !in s.timers
    ensures Run(s, Ticks(h, clocks), p) == Step(s, [])
    decreases |clocks|
  {
    if clocks != [] {
      assert Ticks(h, clocks)[1..] == Ticks(h, clocks[1..]);
      ClearedTimerIsSilent(s, h, clocks[1..], p);
    }
  }

  /** A run is its first event followed by the run of the rest. */
  lemma RunFirst(s: State, events: seq<Event>, p: Restart)
    requires Valid(s) && events != []
    ensures var a := Apply(s, events[0], p);
            var b := Run(a.next, events[1..], p);
            Run(s, events, p) == Step(b.next, a.out + b.out)
  {
  }

  /** A run of one event is that event. */
  lemma RunOne(s: State, e: Event, p: Restart)
    requires Valid(s)
    ensures Run(s, [e], p) == Apply(s, e, p)
  {
    var a := Apply(s, e, p);
    RunFirst(s, [e], p);
    assert [e][1..] == [];
    assert Run(a.next, [], p) == Step(a.next, []);
    assert a.out + [] == a.out;
  }

  /** A run of firings of timer `h` is its first firing followed by the rest. */
  lemma TicksFirst(s: State, h: nat, clocks: seq<Clock>, p: Restart)
    requires Valid(s) && clocks != []
    ensures var a := FireTimer(s, h, clocks[0]);
            var b := Run(a.next, Ticks(h, clocks[1..]), p);
            Run(s, Ticks(h, clocks), p) == Step(b.next, a.out + b.out)
  {
    RunFirst(s, Ticks(h, clocks), p);
    assert Ticks(h, clocks)[0] == Fire(h, clocks[0]);
    assert Ticks(h, clocks)[1..] == Ticks(h, clocks[1..]);
    assert Apply(s, Fire(h, clocks[0]), p) == FireTimer(s, h, clocks[0]);
  }
}

=== FILE: elapsed.dfy ===
/** The HH:MM:SS rendering of a journey's elapsed time. Elapsed time is an
    integral number of milliseconds; the arithmetic follows JavaScript, whose
    `%` truncates toward zero while `Math.floor` of a quotient rounds down. */
module Elapsed {
  import opened Text

  const MsPerHour := 3600000
  const MsPerMinute := 60000
  const MsPerSecond := 1000

  /** JavaScript's `a % b` for a positive divisor: what is left of `a` after
      taking out a whole multiple of `b`, smaller than `b` in magnitude and
      with the sign of the dividend. */
  function JsRem(a: int, b: int): (r: int)
    requires b > 0
    ensures (a - r) % b == 0
    ensures -b < r < b
    ensures a >= 0 ==> r >= 0
    ensures a <= 0 ==> r <= 0
  {
    if a >= 0 then
      assert a - a % b == b * (a / b);
      MultipleRem(b, a / b);
      a % b
    else
      var q := (-a) / b;
      assert a - -((-a) % b) == b * -q;
      MultipleRem(b, -q);
      -((-a) % b)
  }

  lemma AtLeastDivisor(b: int, m: int)
    requires b > 0 && m >= 1
    ensures b * m >= b
  {
  }

  /** A multiple of `b` leaves no remainder. */
  lemma MultipleRem(b: int, q: int)
    requires b > 0
    ensures (b * q) % b == 0
  {
    var x := b * q;
    var d := q - x / b;
    assert x == b * (x / b) + x % b;
    assert b * d == b * q - b * (x / b);
    if d >= 1 {
      AtLeastDivisor(b, d);
    } else if d <= -1 {
      AtLeastDivisor(b, -d);
    }
  }

  /** The contract fixes the value: any remainder of `a` by `b` with the
      dividend's sign and smaller magnitude is `JsRem(a, b)`. */
  lemma JsRemUnique(a: int, b: int, r: int)
    requires b > 0 && (a - r) % b == 0 && -b < r < b
    requires a >= 0 ==> r >= 0
    requires a <= 0 ==> r <= 0
    ensures r == JsRem(a, b)
  {
    var j := JsRem(a, b);
    var k, l := (a - r) / b, (a - j) / b;
    assert a - r == b * k && a - j == b * l;
    var d := k - l;
    assert j - r == b * d;
    if d >= 1 {
      AtLeastDivisor(b, d);
    } else if d <= -1 {
      AtLeastDivisor(b, -d);
    }
  }

  datatype Hms = Hms(hours: int, minutes: int, seconds: int)

  /** The three fields the journey timer displays, before padding. */
  function Split(elapsed: int): (r: Hms)
    ensures elapsed >= 0 ==> r.hours >= 0 && 0 <= r.minutes < 60 && 0 <= r.seconds < 60
    ensures elapsed < 0 ==> r.hours < 0 && -60 <= r.minutes <= 0 && -60 <= r.seconds <= 0
  {
    Hms(elapsed / MsPerHour,
        JsRem(elapsed, MsPerHour) / MsPerMinute,
        JsRem(elapsed, MsPerMinute) / MsPerSecond)
  }

  /** For a non-negative elapsed time the fields recompose the whole seconds elapsed. */
  lemma SplitRecomposes(elapsed: int)
    requires elapsed >= 0
    ensures var t := Split(elapsed);
            t.hours * 3600 + t.minutes * 60 + t.seconds == elapsed / MsPerSecond
  {
    var h := elapsed / MsPerHour;
    var rh := elapsed % MsPerHour;
    assert elapsed == MsPerHour * h + rh;
    var m := rh / MsPerMinute;
    var rm := rh % MsPerMinute;
    assert rh == MsPerMinute * m + rm;
    assert elapsed == MsPerMinute * (60 * h + m) + rm;
    assert elapsed % MsPerMinute == rm;
    var sec := rm / MsPerSecond;
    assert rm == MsPerSecond * sec + rm % MsPerSecond;
    assert elapsed == MsPerSecond * (3600 * h + 60 * m + sec) + rm % MsPerSecond;
  }

  /** One field: its decimal text padded on the left with '0' to width two. */
  function Field(v: int): (r: string)
    ensures |r| >= 2
    ensures 0 <= v < 100 ==> |r| == 2 && IsDigits(r) && DecimalValue(r) == v
  {
    var r := PadStart(IntToString(v), 2, '0');
    if 0 <= v < 100 then TwoDigitsRoundTrip(v); r else r
  }

  /** The text shown in the journey time display. */
  function ClockText(elapsed: int): (r: string)
    ensures |r| >= 8
  {
    var t := Split(elapsed);
    Field(t.hours) + ":" + Field(t.minutes) + ":" + Field(t.seconds)
  }

  /** Reads "HH:MM:SS" back into its three fields. */
  function ParseClock(text: string): (r: Hms)
    requires |text| == 8 && IsDigits(text[0..2]) && IsDigits(text[3..5]) && IsDigits(text[6..8])
  {
    Hms(DecimalValue(text[0..2]), DecimalValue(text[3..5]), DecimalValue(text[6..8]))
  }

  /** Below 100 hours the display is exactly "HH:MM:SS" and reads back as the split. */
  lemma ClockTextRoundTrip(elapsed: int)
    requires 0 <= elapsed < 100 * MsPerHour
    ensures var text := ClockText(elapsed);
            && |text| == 8 && text[2] == ':' && text[5] == ':'
            && IsDigits(text[0..2]) && IsDigits(text[3..5]) && IsDigits(text[6..8])
            && ParseClock(text) == Split(elapsed)
  {
    var t := Split(elapsed);
    HoursBelow(elapsed);
    var a, b, c := Field(t.hours), Field(t.minutes), Field(t.seconds);
    JoinFields(a, b, c);
    assert ClockText(elapsed) == a + ":" + b + ":" + c;
  }

  lemma HoursBelow(elapsed: int)
    requires 0 <= elapsed < 100 * MsPerHour
    ensures 0 <= Split(elapsed).hours < 100
  {
    assert elapsed / MsPerHour < 100;
  }

  lemma JoinFields(a: string, b: string, c: string)
    requires |a| == 2 && |b| == 2 && |c| == 2
    ensures var text := a + ":" + b + ":" + c;
            |text| == 8 && text[2] == ':' && text[5] == ':'
            && text[0..2] == a && text[3..5] == b && text[6..8] == c
  {
  }
}

=== FILE: journey_lifecycle.dfy ===
/** The journey toggle over a session. Unlike the SOS countdown and the
    share ticker, a journey ticker can only be started from the "off" side
    of the toggle, so the page never holds more than one, and that one is
    live exactly while a journey is on. */
module JourneyLifecycle {
  import opened Session
  import opened Controller
  import Sos
  import Sharing
  import Journeys
  import Elapsed
  import Safety

  /** A journey ticker is live exactly while a journey is on, and every
      live one is the one the handle variable names. */
  predicate JourneyTracked(s: State) {
    && (s.currentJourney.Some? <==> JourneyTimers(s) != map[])
    && (forall h :: h in JourneyTimers(s) ==> s.journeyInterval == Some(h))
  }

  /** Under the invariant there is at most one journey ticker. */
  lemma AtMostOneTicker(s: State)
    requires JourneyTracked(s)
    ensures |JourneyTimers(s).Keys| <= 1
    ensures s.currentJourney.Some? ==> JourneyTimers(s).Keys == {s.journeyInterval.value}
  {
    if JourneyTimers(s) != map[] {
      var h :| h in JourneyTimers(s);
      assert JourneyTimers(s).Keys == {h};
    }
  }

  /** Every event keeps the invariant, whichever way the other two flows
      treat their own handles. */
  lemma ApplyKeepsJourneyTracked(s: State, e: Event, p: Restart)
    requires Valid(s) && JourneyTracked(s)
    ensures JourneyTracked(Apply(s, e, p).next)
  {
    match e {
      case TriggerSos =>
        assert Apply(s, e, p) == Sos.Trigger(s, p);
      case ConfirmSos(now) =>
        var c := Sos.Confirm(s, now);
        assert Apply(s, e, p) == c;
        NoJourneyTimerDropped(s, c.next);
      case CancelSos =>
        var c := Sos.Cancel(s);
        assert Apply(s, e, p) == c;
        NoJourneyTimerDropped(s, c.next);
      case SetShareDuration(minutes) =>
        var c := Sharing.SetDuration(s, minutes);
        assert Apply(s, e, p) == c;
        assert JourneyTimers(c.next) == JourneyTimers(s);
      case StartSharing(now) =>
        assert Apply(s, e, p) == Sharing.Start(s, now, p);
      case StopSharing =>
        var c := Sharing.Stop(s);
        assert Apply(s, e, p) == c;
        NoJourneyTimerDropped(s, c.next);
      case ToggleJourney(destination, now) =>
        assert Apply(s, e, p) == Journeys.Toggle(s, destination, now);
        ToggleKeepsJourneyTracked(s, destination, now);
      case Relocate(position) =>
        assert Apply(s, e, p) == Step(s.(userLocation := position), []);
        assert JourneyTimers(s.(userLocation := position)) == JourneyTimers(s);
      case Fire(h, clock) =>
        var c := FireTimer(s, h, clock);
        assert Apply(s, e, p) == c;
        if h in s.timers && s.timers[h].JourneyTicker? {
          assert JourneyTimers(c.next) == JourneyTimers(s);
        }
    }
  }

  /** Dropping timers of the other flows only, the journey fields unchanged,
      keeps the invariant. */
  lemma NoJourneyTimerDropped(a: State, b: State)
    requires JourneyTracked(a)
    requires b.currentJourney == a.currentJourney && b.journeyInterval == a.journeyInterval
    requires forall h :: h in b.timers ==> h in a.timers && b.timers[h] == a.timers[h]
    requires forall h :: h in a.timers && a.timers[h].JourneyTicker? ==> h in b.timers
    ensures JourneyTracked(b)
  {
    assert JourneyTimers(b) == JourneyTimers(a);
  }

  /** The toggle keeps the invariant: stopping clears the only ticker, a
      refused start changes nothing, and a start adds the only ticker. */
  lemma ToggleKeepsJourneyTracked(s: State, destination: string, now: int)
    requires Valid(s) && JourneyTracked(s)
    ensures JourneyTracked(Journeys.Toggle(s, destination, now).next)
  {
    if s.currentJourney.Some? {
      ToggleStops(s, destination, now);
    } else if destination == [] {
      var r := Journeys.Toggle(s, destination, now);
      assert JourneyTimers(r.next) == JourneyTimers(s);
    } else {
      ToggleStarts(s, destination, now);
    }
  }

  /** Toggling a journey off leaves no journey ticker. */
  lemma ToggleStops(s: State, destination: string, now: int)
    requires Valid(s) && JourneyTracked(s) && s.currentJourney.Some?
    ensures var r := Journeys.Toggle(s, destination, now);
            r.next.currentJourney.None? && JourneyTimers(r.next) == map[]
  {
    var r := Journeys.Toggle(s, destination, now);
    assert forall h :: h in r.next.timers ==> h in s.timers && r.next.timers[h] == s.timers[h];
  }

  /** Toggling a journey on from no journey ticker leaves exactly the new one. */
  lemma ToggleStarts(s: State, destination: string, now: int)
    requires Valid(s) && JourneyTracked(s) && s.currentJourney.None? && destination != []
    ensures var r := Journeys.Toggle(s, destination, now);
            && r.next.currentJourney.Some?
            && JourneyTimers(r.next) == map[s.nextHandle := JourneyTicker]
            && r.next.journeyInterval == Some(s.nextHandle)
  {
    var r := Journeys.Toggle(s, destination, now);
    var h := s.nextHandle;
    assert forall k :: k in r.next.timers && k != h ==> k in s.timers && r.next.timers[k] == s.timers[k];
    assert forall k :: k in s.timers ==> k !in JourneyTimers(s);
  }

  lemma {:induction false} RunKeepsJourneyTracked(s: State, events: seq<Event>, p: Restart)
    requires Valid(s) && JourneyTracked(s)
    ensures JourneyTracked(Run(s, events, p).next)
    decreases |events|
  {
    if events != [] {
      var first := Apply(s, events[0], p);
      ApplyKeepsJourneyTracked(s, events[0], p);
      RunKeepsJourneyTracked(first.next, events[1..], p);
    }
  }

  /** From the page as loaded, whatever happens, there is never more than one
      journey ticker, and there is one exactly while a journey is on. */
  lemma SingleJourneyTicker(events: seq<Event>, p: Restart)
    ensures Valid(Init)
    ensures var r := Run(Init, events, p);
            && JourneyTracked(r.next)
            && |JourneyTimers(r.next).Keys| <= 1
            && (r.next.currentJourney.Some? <==> JourneyTimers(r.next) != map[])
  {
    assert JourneyTimers(Init) == map[];
    RunKeepsJourneyTracked(Init, events, p);
    AtMostOneTicker(Run(Init, events, p).next);
  }

  /** A toggle that starts a journey, as one event. */
  lemma Started(s: State, destination: string, now: int, p: Restart)
    requires Valid(s) && JourneyTracked(s) && s.currentJourney.None? && destination != []
    ensures var h := s.nextHandle;
            var r := Run(s, [ToggleJourney(destination, now)], p);
            && r.next.currentJourney == Some(Journey(destination, now, s.userLocation))
            && JourneyTimers(r.next) == map[h := JourneyTicker] && r.next.journeyInterval == Some(h)
            && r.next.nextHandle == h + 1 && r.next.journeyBadge == Active
            && r.next.userLocation == s.userLocation && JourneyTracked(r.next)
            && Count(r.out, JourneyEmit) == 1
  {
    RunOne(s, ToggleJourney(destination, now), p);
    ToggleStarts(s, destination, now);
  }

  /** A toggle that stops a journey, as one event. */
  lemma Stopped(s: State, destination: string, now: int, p: Restart)
    requires Valid(s) && JourneyTracked(s) && s.currentJourney.Some?
    ensures var r := Run(s, [ToggleJourney(destination, now)], p);
            && r.next.currentJourney.None? && JourneyTimers(r.next) == map[]
            && r.next.journeyBadge == Inactive && r.next.nextHandle == s.nextHandle
            && r.next.userLocation == s.userLocation && JourneyTracked(r.next)
            && Count(r.out, JourneyEmit) == 0
            && ActivityLog(JourneyActivity, "Completed journey to " + s.currentJourney.value.destination,
                           At(s.userLocation), now) in r.out
  {
    RunOne(s, ToggleJourney(destination, now), p);
    ToggleStops(s, destination, now);
    var st := Journeys.Stop(s, now);
    assert st.out[1] in st.out;
  }

  /** Start then stop: the journey is off, no ticker is left, contacts were
      notified once, and the completion was logged at the position of the stop. */
  lemma ToggleTwice(s: State, d0: string, t0: int, d1: string, t1: int, p: Restart)
    requires Valid(s) && JourneyTracked(s) && s.currentJourney.None? && d0 != []
    ensures var r := Run(s, [ToggleJourney(d0, t0), ToggleJourney(d1, t1)], p);
            && r.next.currentJourney.None? && JourneyTimers(r.next) == map[]
            && r.next.journeyBadge == Inactive
            && r.next.nextHandle == s.nextHandle + 1 && r.next.userLocation == s.userLocation
            && JourneyTracked(r.next)
            && Count(r.out, JourneyEmit) == 1
            && ActivityLog(JourneyActivity, "Completed journey to " + d0, At(s.userLocation), t1) in r.out
  {
    var a := Run(s, [ToggleJourney(d0, t0)], p);
    Started(s, d0, t0, p);
    var b := Run(a.next, [ToggleJourney(d1, t1)], p);
    Stopped(a.next, d1, t1, p);
    assert [ToggleJourney(d0, t0)] + [ToggleJourney(d1, t1)] == [ToggleJourney(d0, t0), ToggleJourney(d1, t1)];
    RunAppend(s, [ToggleJourney(d0, t0)], [ToggleJourney(d1, t1)], p);
    CountAppend(a.out, b.out, JourneyEmit);
  }

  /** Start, stop, start: the second journey runs on a fresh ticker and the
      first ticker stays cleared. */
  lemma ToggleThrice(s: State, d0: string, t0: int, d1: string, t1: int, d2: string, t2: int, p: Restart)
    requires Valid(s) && JourneyTracked(s) && s.currentJourney.None? && d0 != [] && d2 != []
    ensures var h := s.nextHandle;
            var r := Run(s, [ToggleJourney(d0, t0), ToggleJourney(d1, t1), ToggleJourney(d2, t2)], p);
            && r.next.currentJourney == Some(Journey(d2, t2, s.userLocation))
            && JourneyTimers(r.next) == map[h + 1 := JourneyTicker]
            && Count(r.out, JourneyEmit) == 2
  {
    var twice := [ToggleJourney(d0, t0), ToggleJourney(d1, t1)];
    var a := Run(s, twice, p);
    ToggleTwice(s, d0, t0, d1, t1, p);
    var b := Run(a.next, [ToggleJourney(d2, t2)], p);
    Started(a.next, d2, t2, p);
    assert twice + [ToggleJourney(d2, t2)] == [ToggleJourney(d0, t0), ToggleJourney(d1, t1), ToggleJourney(d2, t2)];
    RunAppend(s, twice, [ToggleJourney(d2, t2)], p);
    CountAppend(a.out, b.out, JourneyEmit);
  }

  /** One firing of a live journey ticker refreshes the two displays and emits nothing. */
  lemma JourneyTick(s: State, h: nat, clock: Clock, p: Restart)
    requires Valid(s) && h in s.timers && s.timers[h] == JourneyTicker
    ensures Run(s, [Fire(h, clock)], p) == Step(Journeys.UpdateStats(s, clock.now, clock.hour, clock.jitter), [])
  {
    RunOne(s, Fire(h, clock), p);
    assert Apply(s, Fire(h, clock), p) == FireTimer(s, h, clock);
    assert FireTimer(s, h, clock) == Step(Journeys.UpdateStats(s, clock.now, clock.hour, clock.jitter), []);
  }

  /** Start a journey, then its ticker fires once: the firing refreshes the
      displays of the journey just started and emits nothing. */
  lemma StartThenTick(s: State, destination: string, now: int, clock: Clock, p: Restart)
    requires Valid(s) && JourneyTracked(s) && s.currentJourney.None? && destination != []
    ensures var a := Run(s, [ToggleJourney(destination, now)], p);
            && a.next.currentJourney == Some(Journey(destination, now, s.userLocation))
            && Run(s, [ToggleJourney(destination, now), Fire(s.nextHandle, clock)], p)
               == Step(Journeys.UpdateStats(a.next, clock.now, clock.hour, clock.jitter), a.out)
  {
    var h := s.nextHandle;
    var a := Run(s, [ToggleJourney(destination, now)], p);
    assert a.next.currentJourney == Some(Journey(destination, now, s.userLocation))
        && h in a.next.timers && a.next.timers[h] == JourneyTicker by {
      Started(s, destination, now, p);
      assert h in JourneyTimers(a.next);
    }
    JourneyTick(a.next, h, clock, p);
    assert [ToggleJourney(destination, now)] + [Fire(h, clock)] == [ToggleJourney(destination, now), Fire(h, clock)];
    RunAppend(s, [ToggleJourney(destination, now)], [Fire(h, clock)], p);
    assert a.out + [] == a.out;
  }

  /** A tick of the journey ticker emits nothing and records the time since
      the start, which the time display renders, and a score in [75, 100]. */
  lemma TickShowsElapsed(s: State, destination: string, now: int, clock: Clock, p: Restart)
    requires Valid(s) && JourneyTracked(s) && s.currentJourney.None? && destination != []
    ensures var r := Run(s, [ToggleJourney(destination, now), Fire(s.nextHandle, clock)], p);
            && r.out == Run(s, [ToggleJourney(destination, now)], p).out
            && r.next.journeyElapsed == Some(clock.now - now)
            && r.next.journeySafetyText == Some(Safety.JourneyScore(clock.hour, clock.jitter))
            && 75 <= r.next.journeySafetyText.value <= 100
  {
    StartThenTick(s, destination, now, clock, p);
  }

  /** A toggle with an empty destination from the "off" side is refused, but
      the labels still switch to Active; the next toggle takes the same
      "off" branch again. */
  lemma RefusedStartShowsActive(s: State, now: int, later: int, p: Restart)
    requires Valid(s) && JourneyTracked(s) && s.currentJourney.None?
    ensures var r := Run(s, [ToggleJourney([], now)], p);
            && r.next.journeyBadge == Active && r.next.currentJourney.None?
            && r.out == [Journeys.MissingDestination]
            && Run(r.next, [ToggleJourney([], later)], p).out == [Journeys.MissingDestination]
  {
    RunOne(s, ToggleJourney([], now), p);
    var r := Run(s, [ToggleJourney([], now)], p);
    RunOne(r.next, ToggleJourney([], later), p);
  }
}

=== FILE: journeys.dfy ===
/** The journey session: a two-state toggle on the current journey, with a
    one-second ticker that refreshes the elapsed time and the simulated
    safety score while a journey is on. */
module Journeys {
  import opened Session
  import Safety
  import Elapsed
  import Text

  const MissingDestination := Toast(ErrorToast, "Error", "Please enter a destination")

  /** `startJourney`: an empty destination is refused with an error notice
      and nothing else; otherwise the journey is recorded with the start time
      and a copy of the current position, a fresh ticker is scheduled, and
      contacts are notified once. */
  function Start(s: State, destination: string, now: int): (r: Step)
    requires Valid(s)
    ensures Valid(r.next)
    ensures destination == [] ==> r.next == s && r.out == [MissingDestination]
    ensures destination != [] ==>
              var h := s.nextHandle;
              && r.next.currentJourney == Some(Journey(destination, now, s.userLocation))
              && h !in s.timers && h in r.next.timers && r.next.timers[h] == JourneyTicker
              && r.next.journeyInterval == Some(h)
              && (forall k :: k in s.timers ==> k in r.next.timers && r.next.timers[k] == s.timers[k])
              && |r.out| == 3
              && r.out[0] == Toast(SuccessToast, "Journey Started", "Heading to " + destination)
              && r.out[1] == JourneyStartedEmit(UserId, destination, now, s.userLocation)
              && r.out[2] == ActivityLog(JourneyActivity, "Started journey to " + destination, At(s.userLocation), now)
    ensures Count(r.out, JourneyEmit) == if destination == [] then 0 else 1
    ensures forall c :: c != Notice && c != JourneyEmit && c != JourneyLog ==> Count(r.out, c) == 0
    ensures forall h :: h in r.next.timers ==> h == s.nextHandle || (h in s.timers && r.next.timers[h] == s.timers[h])
    ensures r.next.journeyBadge == s.journeyBadge
    ensures SameSos(s, r.next) && SameSharing(s, r.next) && r.next.userLocation == s.userLocation
  {
    if destination == [] then Step(s, [MissingDestination])
    else
      var journey := Journey(destination, now, s.userLocation);
      var u := Schedule(s, JourneyTicker);
      var out := [ Toast(SuccessToast, "Journey Started", "Heading to " + destination),
                   JourneyStartedEmit(UserId, destination, now, s.userLocation),
                   ActivityLog(JourneyActivity, "Started journey to " + destination, At(journey.startLocation), now) ];
      assert out[..2][..1][..0] == [] && out[..2][..1] == out[..1];
      assert Count(out[..2], JourneyEmit) == 1;
      var v := u.(currentJourney := Some(journey));
      ValidFrame(u, v);
      Step(v, out)
  }

  /** `stopJourney`: clears the ticker the handle variable names, forgets the
      journey and logs its completion at the current position. */
  function Stop(s: State, now: int): (r: Step)
    requires s.currentJourney.Some?
    ensures r.next.currentJourney.None?
    ensures r.next.timers == ClearInterval(s.timers, s.journeyInterval)
    ensures r.next == s.(timers := r.next.timers, currentJourney := None)
    ensures |r.out| == 2 && forall c :: c != Notice && c != JourneyLog ==> Count(r.out, c) == 0
    ensures r.out[1] == ActivityLog(JourneyActivity, "Completed journey to " + s.currentJourney.value.destination,
                                    At(s.userLocation), now)
    ensures Valid(s) ==> Valid(r.next)
  {
    var journey := s.currentJourney.value;
    var out := [ Toast(SuccessToast, "Journey Completed", "You have arrived safely"),
                 ActivityLog(JourneyActivity, "Completed journey to " + journey.destination, At(s.userLocation), now) ];
    assert out[..1][..0] == [];
    Step(s.(timers := ClearInterval(s.timers, s.journeyInterval), currentJourney := None), out)
  }

  /** `toggleJourney`: stops the current journey if there is one, and starts
      one otherwise. The button and status labels follow the branch taken,
      not its outcome: they read Active even when the start was refused. */
  function Toggle(s: State, destination: string, now: int): (r: Step)
    requires Valid(s)
    ensures Valid(r.next)
    ensures r.next.journeyBadge == if s.currentJourney.Some? then Inactive else Active
    ensures s.currentJourney.Some? ==>
              && r.next.currentJourney.None?
              && (s.journeyInterval.Some? ==> s.journeyInterval.value !in r.next.timers)
              && Count(r.out, JourneyEmit) == 0
    ensures s.currentJourney.None? && destination == [] ==>
              r.next == s.(journeyBadge := Active) && r.out == [MissingDestination]
    ensures s.currentJourney.None? && destination != [] ==>
              r.next.currentJourney == Some(Journey(destination, now, s.userLocation))
              && Count(r.out, JourneyEmit) == 1
    ensures forall c :: c != Notice && c != JourneyEmit && c != JourneyLog ==> Count(r.out, c) == 0
    ensures SameSos(s, r.next) && SameSharing(s, r.next) && r.next.userLocation == s.userLocation
  {
    if s.currentJourney.Some? then
      var r := Stop(s, now);
      KindsOutside(s, r.next, JourneyTicker);
      Step(r.next.(journeyBadge := Inactive), r.out)
    else
      var r := Start(s, destination, now);
      Step(r.next.(journeyBadge := Active), r.out)
  }

  /** One second of the journey ticker (`updateJourneyStats`): with no current
      journey nothing changes; otherwise the time display shows the time since
      the start and the safety display a fresh journey score. */
  function UpdateStats(s: State, now: int, hour: Safety.Hour, jitter: Safety.Jitter): (r: State)
    ensures s.currentJourney.None? ==> r == s
    ensures s.currentJourney.Some? ==>
              && r.journeyElapsed == Some(now - s.currentJourney.value.startTime)
              && r.journeySafetyText.Some? && 75 <= r.journeySafetyText.value <= 100
              && r.journeySafetyText == Some(Safety.JourneyScore(hour, jitter))
    ensures r == s.(journeyElapsed := r.journeyElapsed, journeySafetyText := r.journeySafetyText)
  {
    if s.currentJourney.None? then s
    else
      var score := Safety.JourneyScore(hour, jitter);
      s.(journeyElapsed := Some(now - s.currentJourney.value.startTime), journeySafetyText := Some(score))
  }

  /** The text of the time display: "HH:MM:SS" of the recorded elapsed time.
      Below 100 hours it is exactly eight characters, two digits in each
      field, and reading the fields back gives the hours, minutes and seconds
      of the elapsed time. */
  function TimeDisplay(s: State): (r: Option<string>)
    ensures r.Some? <==> s.journeyElapsed.Some?
    ensures r.Some? ==> |r.value| >= 8
    ensures s.journeyElapsed.Some? && 0 <= s.journeyElapsed.value < 100 * Elapsed.MsPerHour ==>
              var text := r.value;
              && |text| == 8 && text[2] == ':' && text[5] == ':'
              && Text.IsDigits(text[0..2]) && Text.IsDigits(text[3..5]) && Text.IsDigits(text[6..8])
              && Elapsed.ParseClock(text) == Elapsed.Split(s.journeyElapsed.value)
  {
    if s.journeyElapsed.None? then None
    else
      var e := s.journeyElapsed.value;
      if 0 <= e < 100 * Elapsed.MsPerHour then
        Elapsed.ClockTextRoundTrip(e);
        Some(Elapsed.ClockText(e))
      else Some(Elapsed.ClockText(e))
  }

  /** After a tick of a journey under 100 hours old, the recorded elapsed
      time is the time since the journey started, and the time display is
      eight characters that read back as its hours, minutes and seconds. */
  lemma TickDisplaysElapsed(s: State, now: int, hour: Safety.Hour, jitter: Safety.Jitter)
    requires s.currentJourney.Some? && 0 <= now - s.currentJourney.value.startTime < 100 * Elapsed.MsPerHour
    ensures var u := UpdateStats(s, now, hour, jitter);
            && u.journeyElapsed == Some(now - s.currentJourney.value.startTime)
            && TimeDisplay(u).Some? && |TimeDisplay(u).value| == 8
            && Elapsed.ParseClock(TimeDisplay(u).value) == Elapsed.Split(u.journeyElapsed.value)
  {
  }
}

=== FILE: safety.dfy ===
/** The two simulated safety scores: the journey score shown on every
    journey tick and the dashboard assessment made after a position fix.
    The clock hour and the random draws are parameters. */
module Safety {

  /** `new Date().getHours()`. */
  type Hour = h: int | 0 <= h < 24

  /** `Math.floor(Math.random() * 10)`: `Math.random()` lies in [0, 1). */
  type Jitter = j: int | 0 <= j < 10

  /** The late-night band both estimators use: 22:00 up to 04:59. */
  predicate LateNight(hour: Hour) {
    hour >= 22 || hour < 5
  }

  /** `Math.max(lo, Math.min(hi, x))`. */
  function Clamp(lo: int, hi: int, x: int): (r: int)
    requires lo <= hi
    ensures lo <= r <= hi
    ensures lo <= x <= hi ==> r == x
    ensures r != x ==> (x < lo && r == lo) || (x > hi && r == hi)
  {
    if x > hi then hi else if x < lo then lo else x
  }

  /** Journey score: 100, minus 20 late at night, plus jitter minus 5, clamped to [0, 100]. */
  function JourneyScore(hour: Hour, jitter: Jitter): (r: int)
    ensures 75 <= r <= 100
    ensures LateNight(hour) ==> r == 75 + jitter
    ensures !LateNight(hour) ==> r == if jitter >= 5 then 100 else 95 + jitter
    ensures r >= 95 <==> !LateNight(hour)
  {
    var score := 100 - (if LateNight(hour) then 20 else 0);
    Clamp(0, 100, score + jitter - 5)
  }

  /** The CSS colour variable a status is drawn in. */
  datatype Tone = Success | Warning | Danger

  datatype Factor = Factor(tone: Tone, text: string)

  /** The header safety indicator. */
  datatype Indicator = SafeZoneBadge | HighRiskBadge

  datatype Assessment = Assessment(
    score: int,
    status: string,
    color: Tone,
    factors: seq<Factor>,
    indicator: Indicator)

  const LateNightStatus := "Caution: Late Night"
  const EarlyMorningStatus := "High Risk: Early Morning"
  const SafeStatus := "Safe Zone"
  const LateNightFactor := Factor(Warning, "Late Night Travel")
  const EarlyMorningFactor := Factor(Danger, "Early Morning Risk")
  const LowTrafficFactor := Factor(Warning, "Low Traffic Area")

  /** The dashboard assessment. `lowTraffic` is the draw `Math.random() > 0.7`.
      The early-morning band comes after the late-night one, so of the
      hours it names (0 to 5) only hour 5 reaches it. */
  function AnalyzeSafety(hour: Hour, lowTraffic: bool): (a: Assessment)
    ensures a.score in {100, 90, 70, 60, 50}
    ensures a.status == LateNightStatus <==> LateNight(hour)
    ensures a.status == EarlyMorningStatus <==> hour == 5
    ensures a.status == SafeStatus <==> 5 < hour < 22
    ensures LateNight(hour) ==> a.score == (if lowTraffic then 60 else 70) && a.color == Warning
    ensures hour == 5 ==> a.score == (if lowTraffic then 50 else 60) && a.color == Danger
    ensures 5 < hour < 22 ==> a.score == (if lowTraffic then 90 else 100) && a.color == Success
    ensures lowTraffic <==> LowTrafficFactor in a.factors
    ensures |a.factors| == (if 5 < hour < 22 then 0 else 1) + (if lowTraffic then 1 else 0)
    ensures a.indicator == HighRiskBadge <==> a.score < 60
    ensures a.indicator == HighRiskBadge <==> hour == 5 && lowTraffic
  {
    var band :=
      if hour >= 22 || hour < 5 then (30, LateNightStatus, [LateNightFactor], Warning)
      else if hour >= 0 && hour < 6 then (40, EarlyMorningStatus, [EarlyMorningFactor], Danger)
      else (0, SafeStatus, [], Success);
    var score := 100 - band.0 - (if lowTraffic then 10 else 0);
    var factors := band.2 + (if lowTraffic then [LowTrafficFactor] else []);
    Assessment(score, band.1, band.3, factors, if score < 60 then HighRiskBadge else SafeZoneBadge)
  }

  /** At 05:00 without the low-traffic draw the status reads "High Risk"
      while the header indicator still reads "Safe Zone". */
  lemma EarlyMorningHeaderDisagrees()
    ensures var a := AnalyzeSafety(5, false);
            a.status == EarlyMorningStatus && a.indicator == SafeZoneBadge
  {
  }
}

=== FILE: session.dfy ===
/** The page-level state the SOS, location-share and journey flows share:
    the user's position, the live interval timers with the three global
    handle variables that name them, the visible widgets those flows write,
    and the outputs (socket emits, API posts, activity log lines, toasts)
    a step produces. */
module Session {

  datatype Option<T> = None | Some(value: T)

  /** A position. The coordinates are only copied, never computed with. */
  datatype Coordinate = Coordinate(lat: real, lng: real)

  /** The `{lat, lng, timestamp}` object SOS and share messages carry;
      the timestamp is the clock reading in milliseconds. */
  datatype StampedLocation = StampedLocation(lat: real, lng: real, timestamp: int)

  function Stamp(c: Coordinate, now: int): StampedLocation {
    StampedLocation(c.lat, c.lng, now)
  }

  /** The fixed user id every emit carries. */
  const UserId := "user123"

  datatype ToastLevel = SuccessToast | InfoToast | ErrorToast | DangerToast

  datatype ActivityKind = JourneyActivity | CheckinActivity | SosActivity

  /** The third argument of an activity log line: a position, a stamped
      position, or (for location sharing) the chosen duration. */
  datatype ActivityDetail = At(place: Coordinate) | AtStamped(stamped: StampedLocation) | SharingFor(minutes: int)

  datatype Output =
    | SosTriggerEmit(userId: string, location: StampedLocation, message: string)
    | SosApiPost(location: StampedLocation, message: string)
    | JourneyStartedEmit(userId: string, destination: string, startTime: int, position: Coordinate)
    | ShareLocationEmit(userId: string, location: StampedLocation, duration: int)
    | ActivityLog(kind: ActivityKind, description: string, detail: ActivityDetail, timestamp: int)
    | Toast(level: ToastLevel, title: string, message: string)

  /** What an output is, with activity log lines told apart by kind. */
  datatype Channel = SosEmit | SosPost | JourneyEmit | ShareEmit | SosLog | JourneyLog | CheckinLog | Notice

  function ChannelOf(o: Output): Channel {
    match o
    case SosTriggerEmit(_, _, _) => SosEmit
    case SosApiPost(_, _) => SosPost
    case JourneyStartedEmit(_, _, _, _) => JourneyEmit
    case ShareLocationEmit(_, _, _) => ShareEmit
    case ActivityLog(kind, _, _, _) =>
      (match kind
       case SosActivity => SosLog
       case JourneyActivity => JourneyLog
       case CheckinActivity => CheckinLog)
    case Toast(_, _, _) => Notice
  }

  /** How many outputs of `out` go to channel `c`. */
  function Count(out: seq<Output>, c: Channel): (n: nat)
    ensures n <= |out|
    ensures n == 0 <==> forall i :: 0 <= i < |out| ==> ChannelOf(out[i]) != c
  {
    if out == [] then 0
    else Count(out[..|out| - 1], c) + (if ChannelOf(out[|out| - 1]) == c then 1 else 0)
  }

  lemma {:induction false} CountAppend(a: seq<Output>, b: seq<Output>, c: Channel)
    ensures Count(a + b, c) == Count(a, c) + Count(b, c)
    decreases |b|
  {
    if b != [] {
      assert (a + b)[..|a + b| - 1] == a + b[..|b| - 1];
      CountAppend(a, b[..|b| - 1], c);
    } else {
      assert a + b == a;
    }
  }

  /** A live interval timer and the state its callback closes over. */
  datatype Timer =
    | SosCountdown(remaining: int)          // the countdown local to one `triggerSOS` call
    | ShareTicker(endTime: Option<int>)     // the end time fixed by one `startSharing` call
    | JourneyTicker

  /** How a start operation treats the timer its handle variable still names:
      `Overwrite` reassigns the variable and leaves that timer running, as the
      page does; `ClearFirst` clears it before scheduling the new one. */
  datatype Restart = Overwrite | ClearFirst

  datatype Journey = Journey(destination: string, startTime: int, startLocation: Coordinate)

  /** The journey button and status label pair. */
  datatype Badge = Active | Inactive

  datatype State = State(
    userLocation: Coordinate,
    timers: map<nat, Timer>,           // live intervals by handle
    nextHandle: nat,                   // the handle the next `setInterval` returns
    sosInterval: Option<nat>,          // the three global handle variables;
    shareInterval: Option<nat>,        // None is `undefined`
    journeyInterval: Option<nat>,
    sosModalOpen: bool,
    sosCountdownText: Option<int>,     // None: whatever the page showed first
    shareDuration: int,                // minutes; 0 means until stopped
    currentJourney: Option<Journey>,
    journeyBadge: Badge,
    journeyElapsed: Option<int>,       // the milliseconds the time display renders
    journeySafetyText: Option<int>)

  /** The outcome of one operation: the next state and what it emitted, in order. */
  datatype Step = Step(next: State, out: seq<Output>)

  /** The page as loaded: position (0, 0), no timers, a 15-minute share duration. */
  const Init := State(Coordinate(0.0, 0.0), map[], 1, None, None, None, false, None, 15, None, Inactive, None, None)

  /** A handle variable holds nothing or a handle issued earlier. */
  predicate Issued(s: State, slot: Option<nat>) {
    slot.Some? ==> slot.value < s.nextHandle
  }

  /** Every live handle and every handle variable holds a handle issued by an
      earlier `setInterval`, and a handle variable that names a live timer
      names one of its own kind. */
  predicate Valid(s: State) {
    && (forall h :: h in s.timers ==> h < s.nextHandle)
    && Issued(s, s.sosInterval) && Issued(s, s.shareInterval) && Issued(s, s.journeyInterval)
    && (s.sosInterval.Some? && s.sosInterval.value in s.timers ==> s.timers[s.sosInterval.value].SosCountdown?)
    && (s.shareInterval.Some? && s.shareInterval.value in s.timers ==> s.timers[s.shareInterval.value].ShareTicker?)
    && (s.journeyInterval.Some? && s.journeyInterval.value in s.timers ==> s.timers[s.journeyInterval.value].JourneyTicker?)
  }

  /** Validity depends only on the timers, the next handle and the handle variables. */
  lemma ValidFrame(a: State, b: State)
    requires Valid(a)
    requires b.timers == a.timers && b.nextHandle == a.nextHandle
    requires b.sosInterval == a.sosInterval && b.shareInterval == a.shareInterval && b.journeyInterval == a.journeyInterval
    ensures Valid(b)
  {
  }

  /** `clearInterval(handle)`: stops the timer the handle names, if any. */
  function ClearInterval(timers: map<nat, Timer>, handle: Option<nat>): (r: map<nat, Timer>)
    ensures handle.Some? ==> handle.value !in r
    ensures forall h :: h in r <==> h in timers && handle != Some(h)
    ensures forall h :: h in r ==> r[h] == timers[h]
  {
    if handle.Some? then timers - {handle.value} else timers
  }

  /** `handle = setInterval(...)`: adds timer `t` under a handle no live
      timer has, and stores that handle in the variable for `t`'s kind. */
  function Schedule(s: State, t: Timer): (r: State)
    requires Valid(s)
    ensures Valid(r)
    ensures s.nextHandle !in s.timers
    ensures r.timers == s.timers[s.nextHandle := t] && r.nextHandle == s.nextHandle + 1
    ensures t.SosCountdown? ==> r == s.(timers := r.timers, nextHandle := r.nextHandle, sosInterval := Some(s.nextHandle))
    ensures t.ShareTicker? ==> r == s.(timers := r.timers, nextHandle := r.nextHandle, shareInterval := Some(s.nextHandle))
    ensures t.JourneyTicker? ==> r == s.(timers := r.timers, nextHandle := r.nextHandle, journeyInterval := Some(s.nextHandle))
    ensures !t.SosCountdown? ==> SosTimers(r) == SosTimers(s)
    ensures !t.ShareTicker? ==> ShareTimers(r) == ShareTimers(s)
    ensures !t.JourneyTicker? ==> JourneyTimers(r) == JourneyTimers(s)
  {
    var h := s.nextHandle;
    var u := s.(timers := s.timers[h := t], nextHandle := h + 1);
    KindsOutside(s, u, t);
    match t
    case SosCountdown(_) => u.(sosInterval := Some(h))
    case ShareTicker(_) => u.(shareInterval := Some(h))
    case JourneyTicker => u.(journeyInterval := Some(h))
  }

  /** The live timers of each kind, by handle. */
  function SosTimers(s: State): map<nat, Timer> {
    map h | h in s.timers && s.timers[h].SosCountdown? :: s.timers[h]
  }

  function ShareTimers(s: State): map<nat, Timer> {
    map h | h in s.timers && s.timers[h].ShareTicker? :: s.timers[h]
  }

  function JourneyTimers(s: State): map<nat, Timer> {
    map h | h in s.timers && s.timers[h].JourneyTicker? :: s.timers[h]
  }

  /** What the SOS flow owns is the same in both states. */
  predicate SameSos(a: State, b: State) {
    && a.sosInterval == b.sosInterval && a.sosModalOpen == b.sosModalOpen
    && a.sosCountdownText == b.sosCountdownText && SosTimers(a) == SosTimers(b)
  }

  /** What the location-share flow owns is the same in both states. */
  predicate SameSharing(a: State, b: State) {
    && a.shareInterval == b.shareInterval && a.shareDuration == b.shareDuration
    && ShareTimers(a) == ShareTimers(b)
  }

  /** What the journey flow owns is the same in both states. */
  predicate SameJourney(a: State, b: State) {
    && a.journeyInterval == b.journeyInterval && a.currentJourney == b.currentJourney
    && a.journeyBadge == b.journeyBadge && a.journeyElapsed == b.journeyElapsed
    && a.journeySafetyText == b.journeySafetyText && JourneyTimers(a) == JourneyTimers(b)
  }

  /** Replacing the timers with a map that agrees on every timer not of one
      kind leaves the timers of the other kinds as they were. */
  lemma KindsOutside(a: State, b: State, kind: Timer)
    requires forall h :: h in a.timers && !SameKind(a.timers[h], kind) ==> h in b.timers && b.timers[h] == a.timers[h]
    requires forall h :: h in b.timers && !SameKind(b.timers[h], kind) ==> h in a.timers && b.timers[h] == a.timers[h]
    ensures !kind.SosCountdown? ==> SosTimers(a) == SosTimers(b)
    ensures !kind.ShareTicker? ==> ShareTimers(a) == ShareTimers(b)
    ensures !kind.JourneyTicker? ==> JourneyTimers(a) == JourneyTimers(b)
  {
  }

  predicate SameKind(t: Timer, u: Timer) {
    (t.SosCountdown? && u.SosCountdown?) || (t.ShareTicker? && u.ShareTicker?) || (t.JourneyTicker? && u.JourneyTicker?)
  }
}

=== FILE: sharing.dfy ===
/** Live location sharing: a 30-second ticker that broadcasts the current
    position until an end time fixed when sharing starts, or until stopped
    when the chosen duration is 0. */
module Sharing {
  import opened Session
  import Text

  const MsPerMinute := 60000

  /** The ticker's period in milliseconds. */
  const TickInterval := 30000

  /** `setShareDuration`: records the duration for the next start. A running
      ticker reads it too, so it also changes the duration later broadcasts
      carry. */
  function SetDuration(s: State, minutes: int): (r: Step)
    ensures r.out == [] && r.next.shareDuration == minutes
    ensures r.next == s.(shareDuration := minutes)
  {
    Step(s.(shareDuration := minutes), [])
  }

  /** The end time a start computes: none for duration 0, otherwise that
      many minutes after the start. */
  function EndTime(duration: int, now: int): (r: Option<int>)
    ensures r.None? <==> duration == 0
    ensures r.Some? ==> r.value - now == duration * MsPerMinute
  {
    if duration == 0 then None else Some(now + duration * MsPerMinute)
  }

  /** The ticker's expiry test `endTime && new Date() > endTime`. */
  predicate Expired(endTime: Option<int>, now: int) {
    endTime.Some? && now > endTime.value
  }

  /** A ticker started at `start` has expired at `now` exactly when the
      duration is not 0 and more than that many minutes have passed: a share
      without an end time never expires, and a tick at the end instant still
      broadcasts. */
  lemma ExpiryAfterDuration(duration: int, start: int, now: int)
    ensures Expired(EndTime(duration, start), now) <==> duration != 0 && now - start > duration * MsPerMinute
    ensures duration != 0 && now == start + duration * MsPerMinute ==> !Expired(EndTime(duration, start), now)
  {
  }

  /** The message of the start notice. */
  function StartNotice(duration: int): string {
    "Sharing for " + (if duration == 0 then "until you arrive" else Text.IntToString(duration) + " minutes")
  }

  /** The start notice reads "Sharing for until you arrive" for duration 0;
      otherwise "Sharing for ", the duration's decimal text (which reads back
      as the duration), then " minutes". */
  lemma StartNoticeNamesDuration(duration: int)
    ensures var r := StartNotice(duration);
            && |r| >= 21 && r[..12] == "Sharing for "
            && (duration == 0 ==> r[12..] == "until you arrive")
            && (duration != 0 ==> r[|r| - 8..] == " minutes")
            && (duration > 0 ==> Text.Canonical(r[12..|r| - 8]) && Text.DecimalValue(r[12..|r| - 8]) == duration)
            && (duration < 0 ==> r[12] == '-' && Text.Canonical(r[13..|r| - 8]) && Text.DecimalValue(r[13..|r| - 8]) == -duration)
  {
    var lead := "Sharing for ";
    assert |lead| == 12;
    if duration == 0 {
      var r := lead + "until you arrive";
      assert r[..12] == lead && r[12..] == "until you arrive";
    } else {
      var digits := Text.IntToString(duration);
      Framed(lead, digits, " minutes");
      var r := lead + digits + " minutes";
      assert r == StartNotice(duration);
      assert duration < 0 ==> r[12] == digits[0] && r[13..|r| - 8] == digits[1..];
    }
  }

  /** The three parts of a concatenation are its slices. */
  lemma Framed(pre: string, mid: string, post: string)
    ensures var r := pre + mid + post;
            && |r| == |pre| + |mid| + |post|
            && r[..|pre|] == pre && r[|pre|..|pre| + |mid|] == mid && r[|pre| + |mid|..] == post
  {
  }

  /** `startSharing`: fixes the end time from the current duration, schedules
      a fresh ticker which the handle variable then names, and logs a check-in
      carrying the duration. Nothing is broadcast until the first tick. */
  function Start(s: State, now: int, p: Restart): (r: Step)
    requires Valid(s)
    ensures Valid(r.next)
    ensures var h := s.nextHandle;
            && h !in s.timers && h in r.next.timers
            && r.next.timers[h] == ShareTicker(EndTime(s.shareDuration, now))
            && r.next.shareInterval == Some(h)
    ensures |r.out| == 2 && r.out[0] == Toast(InfoToast, "Location Sharing Started", StartNotice(s.shareDuration))
    ensures r.out[1] == ActivityLog(CheckinActivity, "Started location sharing", SharingFor(s.shareDuration), now)
    ensures forall c :: c != Notice && c != CheckinLog ==> Count(r.out, c) == 0
    ensures p == Overwrite ==> forall h :: h in s.timers ==> h in r.next.timers && r.next.timers[h] == s.timers[h]
    ensures p == ClearFirst ==> forall h :: h in s.timers ==> (h in r.next.timers <==> Some(h) != s.shareInterval)
    ensures forall h :: h in r.next.timers ==> h == s.nextHandle || (h in s.timers && r.next.timers[h] == s.timers[h])
    ensures r.next.shareDuration == s.shareDuration
    ensures SameSos(s, r.next) && SameJourney(s, r.next) && r.next.userLocation == s.userLocation
  {
    var t := if p == ClearFirst then s.(timers := ClearInterval(s.timers, s.shareInterval)) else s;
    var u := Schedule(t, ShareTicker(EndTime(s.shareDuration, now)));
    KindsOutside(s, u, ShareTicker(None));
    var out := [ Toast(InfoToast, "Location Sharing Started", StartNotice(s.shareDuration)),
                 ActivityLog(CheckinActivity, "Started location sharing", SharingFor(s.shareDuration), now) ];
    assert ChannelOf(out[0]) == Notice && ChannelOf(out[1]) == CheckinLog;
    Step(u, out)
  }

  /** `stopSharing`: clears the ticker the handle variable names; the only
      output is a notice. */
  function Stop(s: State): (r: Step)
    ensures |r.out| == 1 && forall c :: c != Notice ==> Count(r.out, c) == 0
    ensures r.next.timers == ClearInterval(s.timers, s.shareInterval)
    ensures r.next == s.(timers := r.next.timers)
    ensures Valid(s) ==> Valid(r.next)
  {
    Step(s.(timers := ClearInterval(s.timers, s.shareInterval)),
         [Toast(SuccessToast, "Location Sharing Stopped", "Your location is no longer being shared")])
  }

  /** Thirty seconds of ticker `h`: past its end time it calls `Stop` and
      broadcasts nothing; otherwise it broadcasts the position and the
      duration as they are at this tick. */
  function Tick(s: State, h: nat, now: int): (r: Step)
    requires Valid(s) && h in s.timers && s.timers[h].ShareTicker?
    ensures Valid(r.next)
    ensures Expired(s.timers[h].endTime, now) ==> r == Stop(s)
    ensures !Expired(s.timers[h].endTime, now) ==>
              r.next == s && r.out == [ShareLocationEmit(UserId, Stamp(s.userLocation, now), s.shareDuration)]
    ensures !Expired(s.timers[h].endTime, now) ==> Count(r.out, ShareEmit) == 1
    ensures forall c :: c != Notice && c != ShareEmit ==> Count(r.out, c) == 0
    ensures SameSos(s, r.next) && SameJourney(s, r.next)
  {
    if Expired(s.timers[h].endTime, now) then Stop(s)
    else Step(s, [ShareLocationEmit(UserId, Stamp(s.userLocation, now), s.shareDuration)])
  }
}

=== FILE: sharing_lifecycle.dfy ===
/** What a location-share ticker does over many firings: it broadcasts the
    position until its end time has passed, then stops the share; with no
    end time it broadcasts until stopped; and a second start leaves the
    first ticker running where stop cannot reach it. */
module SharingLifecycle {
  import opened Session
  import opened Controller
  import Sharing
  import Sos
  import Journeys

  /** How many firings, counted from the first, come before the end time has passed. */
  function LeadingUnexpired(endTime: Option<int>, clocks: seq<Clock>): (n: nat)
    ensures n <= |clocks|
    ensures forall i :: 0 <= i < n ==> !Sharing.Expired(endTime, clocks[i].now)
    ensures n < |clocks| ==> Sharing.Expired(endTime, clocks[n].now)
    ensures endTime.None? ==> n == |clocks|
    decreases |clocks|
  {
    if clocks == [] || Sharing.Expired(endTime, clocks[0].now) then 0
    else
      var n := 1 + LeadingUnexpired(endTime, clocks[1..]);
      assert forall i :: 1 <= i < n ==> clocks[i] == clocks[1..][i - 1];
      n
  }

  /** Firings before the end time: each broadcasts the position and the
      duration as they stand, and nothing changes. */
  lemma {:induction false} Broadcasting(s: State, h: nat, clocks: seq<Clock>, p: Restart)
    requires Valid(s) && h in s.timers && s.timers[h].ShareTicker?
    requires forall i :: 0 <= i < |clocks| ==> !Sharing.Expired(s.timers[h].endTime, clocks[i].now)
    ensures var r := Run(s, Ticks(h, clocks), p);
            && r.next == s && |r.out| == |clocks|
            && (forall i :: 0 <= i < |clocks| ==>
                  r.out[i] == ShareLocationEmit(UserId, Stamp(s.userLocation, clocks[i].now), s.shareDuration))
            && Count(r.out, ShareEmit) == |clocks|
    decreases |clocks|
  {
    if clocks != [] {
      var first := Sharing.Tick(s, h, clocks[0].now);
      TicksFirst(s, h, clocks, p);
      assert FireTimer(s, h, clocks[0]) == first;
      Broadcasting(s, h, clocks[1..], p);
      var rest := Run(s, Ticks(h, clocks[1..]), p);
      CountAppend(first.out, rest.out, ShareEmit);
    }
  }

  /** A ticker the handle variable names broadcasts on every firing before
      its end time has passed; the first firing after that stops the share,
      and the firings after it do nothing. */
  lemma {:induction false} TrackedTicker(s: State, h: nat, clocks: seq<Clock>, p: Restart)
    requires Valid(s) && h in s.timers && s.timers[h].ShareTicker? && s.shareInterval == Some(h)
    ensures var n := LeadingUnexpired(s.timers[h].endTime, clocks);
            var r := Run(s, Ticks(h, clocks), p);
            && Count(r.out, ShareEmit) == n
            && (n == |clocks| ==> r.next == s)
            && (n < |clocks| ==> h !in r.next.timers && r.next == Sharing.Stop(s).next)
    decreases |clocks|
  {
    if clocks != [] {
      var first := Sharing.Tick(s, h, clocks[0].now);
      var rest := Run(first.next, Ticks(h, clocks[1..]), p);
      TicksFirst(s, h, clocks, p);
      assert FireTimer(s, h, clocks[0]) == first;
      if Sharing.Expired(s.timers[h].endTime, clocks[0].now) {
        ClearedTimerIsSilent(first.next, h, clocks[1..], p);
        assert first.out + [] == first.out;
      } else {
        TrackedTicker(s, h, clocks[1..], p);
        CountAppend(first.out, rest.out, ShareEmit);
      }
    }
  }

  /** A start, as one event: a fresh ticker with the end time fixed from
      the current duration, named by the handle variable, and no broadcast. */
  lemma Started(s: State, now: int, p: Restart)
    requires Valid(s)
    ensures var h := s.nextHandle;
            var r := Run(s, [StartSharing(now)], p);
            && h !in s.timers && h in r.next.timers
            && r.next.timers[h] == ShareTicker(Sharing.EndTime(s.shareDuration, now))
            && r.next.shareInterval == Some(h) && r.next.nextHandle == h + 1
            && r.next.shareDuration == s.shareDuration && r.next.userLocation == s.userLocation
            && Count(r.out, ShareEmit) == 0
            && (p == Overwrite ==> forall k :: k in s.timers ==> k in r.next.timers && r.next.timers[k] == s.timers[k])
  {
    RunOne(s, StartSharing(now), p);
  }

  /** Start sharing, then let the new ticker fire: it broadcasts exactly as
      many times as it fires before the end time has passed, and with
      duration 0 on every firing and it stays live. */
  lemma SharingTiming(s: State, now: int, clocks: seq<Clock>, p: Restart)
    requires Valid(s)
    ensures var h := s.nextHandle;
            var n := LeadingUnexpired(Sharing.EndTime(s.shareDuration, now), clocks);
            var r := Run(s, [StartSharing(now)] + Ticks(h, clocks), p);
            && Count(r.out, ShareEmit) == n
            && (n < |clocks| ==> h !in r.next.timers)
            && (s.shareDuration == 0 ==> n == |clocks| && h in r.next.timers && r.next.shareInterval == Some(h))
  {
    var h := s.nextHandle;
    var r0 := Run(s, [StartSharing(now)], p);
    Started(s, now, p);
    RunAppend(s, [StartSharing(now)], Ticks(h, clocks), p);
    TrackedTicker(r0.next, h, clocks, p);
    CountAppend(r0.out, Run(r0.next, Ticks(h, clocks), p).out, ShareEmit);
  }

  /** Firings every 30 seconds after `base` against an end time `k` periods
      after it: exactly the first `k` come before the end time. */
  lemma {:induction false} PeriodicFirings(base: int, k: nat, clocks: seq<Clock>)
    requires forall i :: 0 <= i < |clocks| ==> clocks[i].now == base + Sharing.TickInterval * (i + 1)
    ensures LeadingUnexpired(Some(base + Sharing.TickInterval * k), clocks) == if |clocks| < k then |clocks| else k
    decreases |clocks|
  {
    if clocks != [] && k > 0 {
      var base' := base + Sharing.TickInterval;
      assert base + Sharing.TickInterval * k == base' + Sharing.TickInterval * (k - 1);
      assert forall i :: 0 <= i < |clocks[1..]| ==> clocks[1..][i] == clocks[i + 1];
      PeriodicFirings(base', k - 1, clocks[1..]);
    }
  }

  /** A share of `d` minutes, its ticker firing every 30 seconds: it
      broadcasts on the first `2 * d` firings and stops on the next. */
  lemma TimedShareBroadcastCount(s: State, now: int, clocks: seq<Clock>, p: Restart)
    requires Valid(s) && s.shareDuration > 0
    requires forall i :: 0 <= i < |clocks| ==> clocks[i].now == now + Sharing.TickInterval * (i + 1)
    ensures var h := s.nextHandle;
            var r := Run(s, [StartSharing(now)] + Ticks(h, clocks), p);
            && Count(r.out, ShareEmit) == (if |clocks| < 2 * s.shareDuration then |clocks| else 2 * s.shareDuration)
            && (|clocks| > 2 * s.shareDuration ==> h !in r.next.timers)
  {
    SharingTiming(s, now, clocks, p);
    PeriodicFirings(now, 2 * s.shareDuration, clocks);
    assert Sharing.EndTime(s.shareDuration, now) == Some(now + Sharing.TickInterval * (2 * s.shareDuration));
  }

  /** A duration change followed by a firing before the end time: the
      broadcast carries the new duration. */
  lemma ChangeThenFire(s: State, h: nat, minutes: int, clock: Clock, p: Restart)
    requires Valid(s) && h in s.timers && s.timers[h].ShareTicker?
    requires !Sharing.Expired(s.timers[h].endTime, clock.now)
    ensures Run(s, [SetShareDuration(minutes), Fire(h, clock)], p)
         == Step(s.(shareDuration := minutes), [ShareLocationEmit(UserId, Stamp(s.userLocation, clock.now), minutes)])
  {
    var b := Sharing.SetDuration(s, minutes);
    RunFirst(s, [SetShareDuration(minutes), Fire(h, clock)], p);
    assert [SetShareDuration(minutes), Fire(h, clock)][1..] == [Fire(h, clock)];
    RunOne(b.next, Fire(h, clock), p);
  }

  /** A running ticker reads the duration when it fires, not when it was
      started: after a change, broadcasts carry the new duration while the
      end time stays the one fixed at the start. */
  lemma TickUsesCurrentDuration(s: State, now: int, minutes: int, clock: Clock, p: Restart)
    requires Valid(s)
    requires !Sharing.Expired(Sharing.EndTime(s.shareDuration, now), clock.now)
    ensures var h := s.nextHandle;
            var r := Run(s, [StartSharing(now), SetShareDuration(minutes), Fire(h, clock)], p);
            && Count(r.out, ShareEmit) == 1
            && r.out[|r.out| - 1] == ShareLocationEmit(UserId, Stamp(s.userLocation, clock.now), minutes)
            && h in r.next.timers && r.next.timers[h] == ShareTicker(Sharing.EndTime(s.shareDuration, now))
  {
    var h := s.nextHandle;
    var r0 := Run(s, [StartSharing(now)], p);
    Started(s, now, p);
    var tail := [SetShareDuration(minutes), Fire(h, clock)];
    var emit := ShareLocationEmit(UserId, Stamp(s.userLocation, clock.now), minutes);
    var whole := Run(s, [StartSharing(now), SetShareDuration(minutes), Fire(h, clock)], p);
    assert whole == Step(r0.next.(shareDuration := minutes), r0.out + [emit]) by {
      ChangeThenFire(r0.next, h, minutes, clock, p);
      assert [StartSharing(now)] + tail == [StartSharing(now), SetShareDuration(minutes), Fire(h, clock)];
      RunAppend(s, [StartSharing(now)], tail, p);
    }
    assert Count(r0.out + [emit], ShareEmit) == 1 by {
      CountAppend(r0.out, [emit], ShareEmit);
    }
    assert (r0.out + [emit])[|r0.out + [emit]| - 1] == emit;
  }

  /** Start, start again, stop: the second ticker is cleared while the first
      is still live, and nothing has been broadcast. */
  lemma DoubleStartThenStop(s: State, t0: int, t1: int)
    requires Valid(s)
    ensures var h := s.nextHandle;
            var r := Run(s, [StartSharing(t0), StartSharing(t1), StopSharing], Overwrite);
            && h in r.next.timers && r.next.timers[h] == ShareTicker(Sharing.EndTime(s.shareDuration, t0))
            && r.next.shareInterval == Some(h + 1) && h + 1 !in r.next.timers
            && r.next.userLocation == s.userLocation && r.next.shareDuration == s.shareDuration
            && Count(r.out, ShareEmit) == 0
  {
    var a := Run(s, [StartSharing(t0)], Overwrite);
    Started(s, t0, Overwrite);
    var b := Run(a.next, [StartSharing(t1), StopSharing], Overwrite);
    StartThenStop(a.next, t1);
    assert [StartSharing(t0)] + [StartSharing(t1), StopSharing] == [StartSharing(t0), StartSharing(t1), StopSharing];
    RunAppend(s, [StartSharing(t0)], [StartSharing(t1), StopSharing], Overwrite);
    CountAppend(a.out, b.out, ShareEmit);
  }

  /** A stop, as one event: the ticker the handle variable names is
      cleared, every other one is kept, and nothing is broadcast. */
  lemma Stopped(s: State, p: Restart)
    requires Valid(s)
    ensures var r := Run(s, [StopSharing], p);
            && (forall k :: k in r.next.timers <==> k in s.timers && s.shareInterval != Some(k))
            && (forall k :: k in r.next.timers ==> r.next.timers[k] == s.timers[k])
            && r.next == s.(timers := r.next.timers)
            && Count(r.out, ShareEmit) == 0
  {
    RunOne(s, StopSharing, p);
  }

  /** Start then stop: the new ticker is cleared, every older one is kept,
      and nothing has been broadcast. */
  lemma StartThenStop(s: State, now: int)
    requires Valid(s)
    ensures var h := s.nextHandle;
            var r := Run(s, [StartSharing(now), StopSharing], Overwrite);
            && (forall k :: k in s.timers ==> k in r.next.timers && r.next.timers[k] == s.timers[k])
            && r.next.shareInterval == Some(h) && h !in r.next.timers
            && r.next.userLocation == s.userLocation && r.next.shareDuration == s.shareDuration
            && Count(r.out, ShareEmit) == 0
  {
    var a := Run(s, [StartSharing(now)], Overwrite);
    Started(s, now, Overwrite);
    var c := Run(a.next, [StopSharing], Overwrite);
    Stopped(a.next, Overwrite);
    assert [StartSharing(now)] + [StopSharing] == [StartSharing(now), StopSharing];
    RunAppend(s, [StartSharing(now)], [StopSharing], Overwrite);
    CountAppend(a.out, c.out, ShareEmit);
  }

  /** As the page is written, a second start reassigns the handle variable
      without clearing the first ticker. With duration 0 the first ticker has
      no end time, so after the stop it still broadcasts on every firing. */
  lemma StoppedDoubleStartStillBroadcasts(s: State, t0: int, t1: int, clocks: seq<Clock>)
    requires Valid(s) && s.shareDuration == 0
    ensures var h := s.nextHandle;
            var r := Run(s, [StartSharing(t0), StartSharing(t1), StopSharing] + Ticks(h, clocks), Overwrite);
            && Count(r.out, ShareEmit) == |clocks|
            && h in r.next.timers
  {
    var h := s.nextHandle;
    var head := [StartSharing(t0), StartSharing(t1), StopSharing];
    DoubleStartThenStop(s, t0, t1);
    var r0 := Run(s, head, Overwrite);
    RunAppend(s, head, Ticks(h, clocks), Overwrite);
    Broadcasting(r0.next, h, clocks, Overwrite);
    var r1 := Run(r0.next, Ticks(h, clocks), Overwrite);
    CountAppend(r0.out, r1.out, ShareEmit);
  }

  /** At most one ticker is live, and it is the one the handle variable names. */
  predicate SingleTicker(s: State) {
    forall h :: h in ShareTimers(s) ==> s.shareInterval == Some(h)
  }

  /** With a start that clears the previous ticker first, every event keeps
      at most one ticker live. */
  lemma ClearFirstKeepsSingleTicker(s: State, e: Event)
    requires Valid(s) && SingleTicker(s)
    ensures SingleTicker(Apply(s, e, ClearFirst).next)
  {
    match e {
      case TriggerSos =>
        var c := Sos.Trigger(s, ClearFirst);
        assert Apply(s, e, ClearFirst) == c;
        SingleTickerSameSharing(s, c.next);
      case ConfirmSos(now) =>
        var c := Sos.Confirm(s, now);
        assert Apply(s, e, ClearFirst) == c;
        SingleTickerInSubset(s, c.next);
      case CancelSos =>
        var c := Sos.Cancel(s);
        assert Apply(s, e, ClearFirst) == c;
        SingleTickerInSubset(s, c.next);
      case SetShareDuration(minutes) =>
        var c := Sharing.SetDuration(s, minutes);
        assert Apply(s, e, ClearFirst) == c;
        SingleTickerInSubset(s, c.next);
      case StartSharing(now) =>
        var c := Sharing.Start(s, now, ClearFirst);
        assert Apply(s, e, ClearFirst) == c;
        assert forall h :: h in c.next.timers && h != s.nextHandle ==> h in s.timers && c.next.timers[h] == s.timers[h];
      case StopSharing =>
        var c := Sharing.Stop(s);
        assert Apply(s, e, ClearFirst) == c;
        SingleTickerInSubset(s, c.next);
      case ToggleJourney(destination, now) =>
        var c := Journeys.Toggle(s, destination, now);
        assert Apply(s, e, ClearFirst) == c;
        SingleTickerSameSharing(s, c.next);
      case Relocate(position) =>
        assert Apply(s, e, ClearFirst) == Step(s.(userLocation := position), []);
        SingleTickerInSubset(s, s.(userLocation := position));
      case Fire(h, clock) =>
        assert Apply(s, e, ClearFirst) == FireTimer(s, h, clock);
        SingleTickerFire(s, h, clock);
    }
  }

  /** A firing keeps a single ticker: a share tick at most clears it, the
      other kinds leave it alone. */
  lemma SingleTickerFire(s: State, h: nat, clock: Clock)
    requires Valid(s) && SingleTicker(s)
    ensures SingleTicker(FireTimer(s, h, clock).next)
  {
    var c := FireTimer(s, h, clock);
    if h in s.timers && s.timers[h].ShareTicker? {
      SingleTickerInSubset(s, c.next);
    } else if h in s.timers {
      SingleTickerSameSharing(s, c.next);
    }
  }

  /** Dropping timers, the handle variable unchanged, keeps a single ticker. */
  lemma SingleTickerInSubset(a: State, b: State)
    requires SingleTicker(a) && b.shareInterval == a.shareInterval
    requires forall h :: h in b.timers ==> h in a.timers && b.timers[h] == a.timers[h]
    ensures SingleTicker(b)
  {
    assert forall h :: h in ShareTimers(b) ==> h in ShareTimers(a);
  }

  lemma SingleTickerSameSharing(a: State, b: State)
    requires SingleTicker(a) && SameSharing(a, b)
    ensures SingleTicker(b)
  {
  }

  lemma {:induction false} ClearFirstRunKeepsSingleTicker(s: State, events: seq<Event>)
    requires Valid(s) && SingleTicker(s)
    ensures SingleTicker(Run(s, events, ClearFirst).next)
    decreases |events|
  {
    if events != [] {
      var first := Apply(s, events[0], ClearFirst);
      ClearFirstKeepsSingleTicker(s, events[0]);
      ClearFirstRunKeepsSingleTicker(first.next, events[1..]);
    }
  }

  /** With no ticker live, any event but a start broadcasts nothing and
      starts no ticker. */
  lemma QuietStep(s: State, e: Event, p: Restart)
    requires Valid(s) && ShareTimers(s) == map[]
    requires !e.StartSharing?
    ensures var r := Apply(s, e, p);
            ShareTimers(r.next) == map[] && Count(r.out, ShareEmit) == 0
  {
    match e {
      case TriggerSos =>
        var c := Sos.Trigger(s, p);
        assert Apply(s, e, p) == c;
      case ConfirmSos(now) =>
        var c := Sos.Confirm(s, now);
        assert Apply(s, e, p) == c;
        NoTickerInSubset(s, c.next);
        Sos.AlertCounts(c.out, s.userLocation, now);
      case CancelSos =>
        var c := Sos.Cancel(s);
        assert Apply(s, e, p) == c;
        NoTickerInSubset(s, c.next);
      case SetShareDuration(minutes) =>
        var c := Sharing.SetDuration(s, minutes);
        assert Apply(s, e, p) == c;
        assert ShareTimers(c.next) == ShareTimers(s);
      case StopSharing =>
        var c := Sharing.Stop(s);
        assert Apply(s, e, p) == c;
        NoTickerInSubset(s, c.next);
      case ToggleJourney(destination, now) =>
        var c := Journeys.Toggle(s, destination, now);
        assert Apply(s, e, p) == c;
      case Relocate(position) =>
        assert Apply(s, e, p) == Step(s.(userLocation := position), []);
        assert ShareTimers(s.(userLocation := position)) == ShareTimers(s);
      case Fire(h, clock) =>
        assert Apply(s, e, p) == FireTimer(s, h, clock);
        QuietFire(s, h, clock);
    }
  }

  /** Dropping timers starts no ticker. */
  lemma NoTickerInSubset(a: State, b: State)
    requires ShareTimers(a) == map[]
    requires forall h :: h in b.timers ==> h in a.timers && b.timers[h] == a.timers[h]
    ensures ShareTimers(b) == map[]
  {
    assert forall h :: h in a.timers ==> h !in ShareTimers(a);
  }

  /** A firing, with no ticker live, is not a broadcast and starts none. */
  lemma QuietFire(s: State, h: nat, clock: Clock)
    requires Valid(s) && ShareTimers(s) == map[]
    ensures var r := FireTimer(s, h, clock);
            ShareTimers(r.next) == map[] && Count(r.out, ShareEmit) == 0
  {
    var r := FireTimer(s, h, clock);
    if h in s.timers {
      assert h !in ShareTimers(s);
      if s.timers[h].SosCountdown? {
        var c := s.timers[h].remaining - 1;
        if c <= 0 {
          Sos.AlertCounts(r.out, s.userLocation, clock.now);
        }
      } else {
        assert ShareTimers(r.next) == ShareTimers(s);
      }
    }
  }

  lemma {:induction false} QuietRun(s: State, events: seq<Event>, p: Restart)
    requires Valid(s) && ShareTimers(s) == map[]
    requires forall i :: 0 <= i < |events| ==> !events[i].StartSharing?
    ensures Count(Run(s, events, p).out, ShareEmit) == 0
    decreases |events|
  {
    if events != [] {
      var first := Apply(s, events[0], p);
      QuietStep(s, events[0], p);
      QuietRun(first.next, events[1..], p);
      CountAppend(first.out, Run(first.next, events[1..], p).out, ShareEmit);
    }
  }

  /** When at most one ticker is live, a stop ends the broadcasts for good:
      until the next start, nothing is broadcast. */
  lemma StopIsFinal(s: State, events: seq<Event>, p: Restart)
    requires Valid(s) && SingleTicker(s)
    requires forall i :: 0 <= i < |events| ==> !events[i].StartSharing?
    ensures Count(Run(s, [StopSharing] + events, p).out, ShareEmit) == 0
  {
    var c := Sharing.Stop(s);
    assert forall h :: h in c.next.timers ==> h in s.timers && c.next.timers[h] == s.timers[h];
    assert ShareTimers(c.next) == map[];
    RunAppend(s, [StopSharing], events, p);
    assert Run(s, [StopSharing], p) == Step(c.next, c.out + []);
    assert c.out + [] == c.out;
    QuietRun(c.next, events, p);
    CountAppend(c.out, Run(c.next, events, p).out, ShareEmit);
  }

  /** Two clearing starts broadcast nothing and leave a single ticker. */
  lemma ClearFirstStartTwice(s: State, t0: int, t1: int)
    requires Valid(s) && SingleTicker(s)
    ensures var r := Run(s, [StartSharing(t0), StartSharing(t1)], ClearFirst);
            Count(r.out, ShareEmit) == 0 && SingleTicker(r.next)
  {
    var starts := [StartSharing(t0), StartSharing(t1)];
    var a := Run(s, [StartSharing(t0)], ClearFirst);
    Started(s, t0, ClearFirst);
    Started(a.next, t1, ClearFirst);
    assert [StartSharing(t0)] + [StartSharing(t1)] == starts;
    RunAppend(s, [StartSharing(t0)], [StartSharing(t1)], ClearFirst);
    CountAppend(a.out, Run(a.next, [StartSharing(t1)], ClearFirst).out, ShareEmit);
    ClearFirstRunKeepsSingleTicker(s, starts);
  }

  /** Corrected start: clearing the previous ticker first, the same start,
      start, stop sequence broadcasts nothing, however long the first handle
      keeps being fired. */
  lemma ClearFirstDoubleStartStopped(s: State, t0: int, t1: int, clocks: seq<Clock>)
    requires Valid(s) && SingleTicker(s)
    ensures var h := s.nextHandle;
            var r := Run(s, [StartSharing(t0), StartSharing(t1), StopSharing] + Ticks(h, clocks), ClearFirst);
            Count(r.out, ShareEmit) == 0
  {
    var h := s.nextHandle;
    var starts := [StartSharing(t0), StartSharing(t1)];
    var rest := [StopSharing] + Ticks(h, clocks);
    var r0 := Run(s, starts, ClearFirst);
    ClearFirstStartTwice(s, t0, t1);
    var r1 := Run(r0.next, rest, ClearFirst);
    StopIsFinal(r0.next, Ticks(h, clocks), ClearFirst);
    assert starts + rest == [StartSharing(t0), StartSharing(t1), StopSharing] + Ticks(h, clocks);
    RunAppend(s, starts, rest, ClearFirst);
    CountAppend(r0.out, r1.out, ShareEmit);
  }
}

=== FILE: sos.dfy ===
/** The SOS alert: a modal with a ten-second countdown that sends the alert
    when it runs out, unless the user cancels it first or confirms earlier. */
module Sos {
  import opened Session

  const CountdownStart := 10
  const EmitMessage := "EMERGENCY SOS activated!"
  const ApiMessage := "EMERGENCY SOS activated! I need help immediately."

  /** `out` is one confirmed alert sent from `position` at `now`: the socket
      emit, the API post and the activity log line all carry the same stamped
      location, and a danger toast tells the user. */
  predicate IsAlert(out: seq<Output>, position: Coordinate, now: int) {
    var loc := Stamp(position, now);
    && |out| == 4
    && out[0] == SosTriggerEmit(UserId, loc, EmitMessage)
    && out[1] == SosApiPost(loc, ApiMessage)
    && out[2] == Toast(DangerToast, "SOS Sent", "Emergency contacts have been notified")
    && out[3] == ActivityLog(SosActivity, "Emergency SOS activated", AtStamped(loc), now)
  }

  /** An alert is one emit, one post and one log line. */
  lemma AlertCounts(out: seq<Output>, position: Coordinate, now: int)
    requires IsAlert(out, position, now)
    ensures Count(out, SosEmit) == 1 && Count(out, SosPost) == 1 && Count(out, SosLog) == 1
    ensures Count(out, ShareEmit) == 0 && Count(out, JourneyEmit) == 0
  {
    CountFour(out, SosEmit);
    CountFour(out, SosPost);
    CountFour(out, SosLog);
    CountFour(out, ShareEmit);
    CountFour(out, JourneyEmit);
  }

  lemma CountFour(out: seq<Output>, ch: Channel)
    requires |out| == 4
    ensures Count(out, ch) == (if ChannelOf(out[0]) == ch then 1 else 0) + (if ChannelOf(out[1]) == ch then 1 else 0)
                              + (if ChannelOf(out[2]) == ch then 1 else 0) + (if ChannelOf(out[3]) == ch then 1 else 0)
  {
    var a, b, c := out[..1], out[..2], out[..3];
    assert a[..0] == [] && b[..1] == a && c[..2] == b && out[..3] == c;
    assert Count(a, ch) == (if ChannelOf(out[0]) == ch then 1 else 0);
    assert Count(b, ch) == Count(a, ch) + (if ChannelOf(out[1]) == ch then 1 else 0);
    assert Count(c, ch) == Count(b, ch) + (if ChannelOf(out[2]) == ch then 1 else 0);
  }

  /** `triggerSOS`: opens the modal showing 10 and schedules a fresh countdown
      timer, which the handle variable then names. */
  function Trigger(s: State, p: Restart): (r: Step)
    requires Valid(s)
    ensures Valid(r.next) && r.out == []
    ensures var h := s.nextHandle;
            && h !in s.timers && h in r.next.timers
            && r.next.timers[h] == SosCountdown(CountdownStart)
            && r.next.sosInterval == Some(h)
    ensures r.next.sosModalOpen && r.next.sosCountdownText == Some(CountdownStart)
    ensures p == Overwrite ==> forall h :: h in s.timers ==> h in r.next.timers && r.next.timers[h] == s.timers[h]
    ensures p == ClearFirst ==> forall h :: h in s.timers ==> (h in r.next.timers <==> Some(h) != s.sosInterval)
    ensures forall h :: h in r.next.timers ==> h == s.nextHandle || (h in s.timers && r.next.timers[h] == s.timers[h])
    ensures SameSharing(s, r.next) && SameJourney(s, r.next) && r.next.userLocation == s.userLocation
  {
    var t := if p == ClearFirst then s.(timers := ClearInterval(s.timers, s.sosInterval)) else s;
    var u := Schedule(t, SosCountdown(CountdownStart));
    KindsOutside(s, u, SosCountdown(0));
    var v := u.(sosModalOpen := true, sosCountdownText := Some(CountdownStart));
    ValidFrame(u, v);
    Step(v, [])
  }

  /** `confirmSOS`: clears the timer the handle variable names, closes the
      modal and sends the alert from the current position. */
  function Confirm(s: State, now: int): (r: Step)
    ensures IsAlert(r.out, s.userLocation, now)
    ensures r.next.timers == ClearInterval(s.timers, s.sosInterval)
    ensures r.next == s.(timers := r.next.timers, sosModalOpen := false)
    ensures Valid(s) ==> Valid(r.next)
  {
    var loc := Stamp(s.userLocation, now);
    Step(s.(timers := ClearInterval(s.timers, s.sosInterval), sosModalOpen := false),
         [ SosTriggerEmit(UserId, loc, EmitMessage),
           SosApiPost(loc, ApiMessage),
           Toast(DangerToast, "SOS Sent", "Emergency contacts have been notified"),
           ActivityLog(SosActivity, "Emergency SOS activated", AtStamped(loc), now) ])
  }

  /** `cancelSOS`: clears the timer the handle variable names and closes the
      modal; the only output is a notice. */
  function Cancel(s: State): (r: Step)
    ensures |r.out| == 1 && forall c :: c != Notice ==> Count(r.out, c) == 0
    ensures r.next.timers == ClearInterval(s.timers, s.sosInterval)
    ensures r.next == s.(timers := r.next.timers, sosModalOpen := false)
    ensures Valid(s) ==> Valid(r.next)
  {
    Step(s.(timers := ClearInterval(s.timers, s.sosInterval), sosModalOpen := false),
         [Toast(InfoToast, "SOS Cancelled", "Emergency alert has been cancelled")])
  }

  /** One second of countdown timer `h`: its own counter drops by one and is
      shown; when it reaches zero or below, the alert is confirmed. */
  function Tick(s: State, h: nat, now: int): (r: Step)
    requires Valid(s) && h in s.timers && s.timers[h].SosCountdown?
    ensures Valid(r.next)
    ensures var c := s.timers[h].remaining - 1;
            && r.next.sosCountdownText == Some(c)
            && (c > 0 ==> r.out == [] && r.next.timers == s.timers[h := SosCountdown(c)]
                          && r.next.sosModalOpen == s.sosModalOpen)
            && (c <= 0 ==> IsAlert(r.out, s.userLocation, now) && !r.next.sosModalOpen
                           && r.next.timers == ClearInterval(s.timers[h := SosCountdown(c)], s.sosInterval))
    ensures r.next.sosInterval == s.sosInterval && r.next.nextHandle == s.nextHandle
    ensures SameSharing(s, r.next) && SameJourney(s, r.next) && r.next.userLocation == s.userLocation
  {
    var c := s.timers[h].remaining - 1;
    var t := s.(timers := s.timers[h := SosCountdown(c)], sosCountdownText := Some(c));
    var r := if c <= 0 then Confirm(t, now) else Step(t, []);
    KindsOutside(s, r.next, SosCountdown(0));
    r
  }
}

=== FILE: sos_lifecycle.dfy ===
/** What the SOS countdown does over many timer firings: the alert goes out
    on the tenth second, once; a cancel before it silences it; and a second
    trigger leaves the first countdown running where cancel cannot reach it.
    With a trigger that clears the previous countdown, every session sends at
    most one alert per trigger or confirm. */
module SosLifecycle {
  import opened Session
  import opened Controller
  import Sos
  import Sharing
  import Journeys

  /** A countdown the handle variable names: silent while its counter stays
      above zero, then one alert from the position of the moment, after which
      the timer is gone and later firings do nothing. */
  lemma {:induction false} TrackedCountdown(s: State, h: nat, clocks: seq<Clock>, p: Restart)
    requires Valid(s) && h in s.timers && s.timers[h].SosCountdown? && s.timers[h].remaining >= 1
    requires s.sosInterval == Some(h)
    ensures var c := s.timers[h].remaining;
            var r := Run(s, Ticks(h, clocks), p);
            && r.next.sosInterval == s.sosInterval && r.next.userLocation == s.userLocation
            && (|clocks| < c ==>
                  && r.out == [] && h in r.next.timers && r.next.timers[h] == SosCountdown(c - |clocks|)
                  && r.next.sosModalOpen == s.sosModalOpen)
            && (|clocks| >= c ==>
                  && Sos.IsAlert(r.out, s.userLocation, clocks[c - 1].now)
                  && h !in r.next.timers && !r.next.sosModalOpen)
    decreases |clocks|
  {
    if clocks != [] {
      var c := s.timers[h].remaining;
      var first := Sos.Tick(s, h, clocks[0].now);
      TicksFirst(s, h, clocks, p);
      assert FireTimer(s, h, clocks[0]) == first;
      var rest := Run(first.next, Ticks(h, clocks[1..]), p);
      if c == 1 {
        ClearedTimerIsSilent(first.next, h, clocks[1..], p);
        assert first.out + [] == first.out;
      } else {
        TrackedCountdown(first.next, h, clocks[1..], p);
        if |clocks| >= c {
          assert clocks[1..][c - 2] == clocks[c - 1];
        }
      }
    }
  }

  /** One tick of a countdown the handle variable does not name: the counter
      drops by one, the timer stays live, and the alert goes out once the
      counter is at zero or below. */
  lemma UntrackedTick(s: State, h: nat, now: int)
    requires Valid(s) && h in s.timers && s.timers[h].SosCountdown? && s.sosInterval != Some(h)
    ensures var c := s.timers[h].remaining - 1;
            var r := Sos.Tick(s, h, now);
            && h in r.next.timers && r.next.timers[h] == SosCountdown(c)
            && r.next.sosInterval == s.sosInterval && r.next.userLocation == s.userLocation
            && (c > 0 ==> r.out == [])
            && (c <= 0 ==> Sos.IsAlert(r.out, s.userLocation, now))
  {
  }

  /** A countdown the handle variable no longer names, fired fewer times
      than its counter: it only counts down. */
  lemma {:induction false} UntrackedSilent(s: State, h: nat, clocks: seq<Clock>, p: Restart)
    requires Valid(s) && h in s.timers && s.timers[h].SosCountdown?
    requires s.sosInterval != Some(h) && s.timers[h].remaining > |clocks|
    ensures var r := Run(s, Ticks(h, clocks), p);
            && r.out == [] && h in r.next.timers
            && r.next.timers[h] == SosCountdown(s.timers[h].remaining - |clocks|)
            && r.next.sosInterval == s.sosInterval && r.next.userLocation == s.userLocation
    decreases |clocks|
  {
    if clocks != [] {
      var first := Sos.Tick(s, h, clocks[0].now);
      var rest := Run(first.next, Ticks(h, clocks[1..]), p);
      assert Run(s, Ticks(h, clocks), p) == Step(rest.next, first.out + rest.out) by {
        TicksFirst(s, h, clocks, p);
        assert FireTimer(s, h, clocks[0]) == first;
      }
      UntrackedTick(s, h, clocks[0].now);
      UntrackedSilent(first.next, h, clocks[1..], p);
    }
  }

  /** A countdown the handle variable no longer names runs down the same
      way and alerts when its counter reaches zero, but stays live. */
  lemma UntrackedCountdown(s: State, h: nat, clocks: seq<Clock>, p: Restart)
    requires Valid(s) && h in s.timers && s.timers[h].SosCountdown?
    requires s.sosInterval != Some(h) && s.timers[h].remaining == |clocks| >= 1
    ensures var r := Run(s, Ticks(h, clocks), p);
            && Sos.IsAlert(r.out, s.userLocation, clocks[|clocks| - 1].now)
            && h in r.next.timers && r.next.timers[h] == SosCountdown(0)
            && r.next.sosInterval == s.sosInterval
  {
    var n := |clocks|;
    var last := clocks[n - 1];
    var a := Run(s, Ticks(h, clocks[..n - 1]), p);
    UntrackedSilent(s, h, clocks[..n - 1], p);
    assert |clocks[..n - 1]| == n - 1;
    assert a.next.timers[h] == SosCountdown(1);
    var b := Sos.Tick(a.next, h, last.now);
    UntrackedTick(a.next, h, last.now);
    assert b.next.timers[h] == SosCountdown(0);
    assert Run(a.next, Ticks(h, [last]), p) == b by {
      assert Ticks(h, [last]) == [Fire(h, last)];
      RunOne(a.next, Fire(h, last), p);
      assert Apply(a.next, Fire(h, last), p) == FireTimer(a.next, h, last);
    }
    assert Run(s, Ticks(h, clocks), p) == Step(b.next, [] + b.out) by {
      assert Ticks(h, clocks) == Ticks(h, clocks[..n - 1]) + Ticks(h, [last]);
      RunAppend(s, Ticks(h, clocks[..n - 1]), Ticks(h, [last]), p);
    }
    assert [] + b.out == b.out;
  }

  /** A countdown the handle variable no longer names: once its counter is
      at one or below, every firing sends a full alert and the timer stays live. */
  lemma {:induction false} LeakedCountdown(s: State, h: nat, clocks: seq<Clock>, p: Restart)
    requires Valid(s) && h in s.timers && s.timers[h].SosCountdown? && s.timers[h].remaining <= 1
    requires s.sosInterval != Some(h)
    ensures var r := Run(s, Ticks(h, clocks), p);
            && Count(r.out, SosEmit) == |clocks| && Count(r.out, SosPost) == |clocks|
            && Count(r.out, SosLog) == |clocks|
            && h in r.next.timers && r.next.sosInterval == s.sosInterval
    decreases |clocks|
  {
    if clocks != [] {
      var first := Sos.Tick(s, h, clocks[0].now);
      TicksFirst(s, h, clocks, p);
      assert FireTimer(s, h, clocks[0]) == first;
      var rest := Run(first.next, Ticks(h, clocks[1..]), p);
      Sos.AlertCounts(first.out, s.userLocation, clocks[0].now);
      LeakedCountdown(first.next, h, clocks[1..], p);
      CountAppend(first.out, rest.out, SosEmit);
      CountAppend(first.out, rest.out, SosPost);
      CountAppend(first.out, rest.out, SosLog);
    }
  }

  /** One trigger: ticks one to nine only count down; the tenth sends the
      alert from the position of that moment and clears the countdown, so any
      number of ticks sends exactly one emit, one post and one log line. */
  lemma SosTiming(s: State, clocks: seq<Clock>, p: Restart)
    requires Valid(s)
    ensures var h := s.nextHandle;
            var r := Run(s, [TriggerSos] + Ticks(h, clocks), p);
            && r.next.sosInterval == Some(h)
            && (|clocks| < 10 ==>
                  && r.out == [] && r.next.sosModalOpen
                  && h in r.next.timers && r.next.timers[h] == SosCountdown(10 - |clocks|))
            && (|clocks| >= 10 ==>
                  && Sos.IsAlert(r.out, s.userLocation, clocks[9].now)
                  && h !in r.next.timers && !r.next.sosModalOpen)
            && Count(r.out, SosEmit) == (if |clocks| >= 10 then 1 else 0)
            && Count(r.out, SosPost) == (if |clocks| >= 10 then 1 else 0)
            && Count(r.out, SosLog) == (if |clocks| >= 10 then 1 else 0)
  {
    var h := s.nextHandle;
    var t := Sos.Trigger(s, p);
    RunAppend(s, [TriggerSos], Ticks(h, clocks), p);
    assert Run(s, [TriggerSos], p) == Step(t.next, []);
    TrackedCountdown(t.next, h, clocks, p);
    var r := Run(t.next, Ticks(h, clocks), p);
    assert [] + r.out == r.out;
    if |clocks| >= 10 {
      Sos.AlertCounts(r.out, s.userLocation, clocks[9].now);
    }
  }

  /** A cancel before the tenth tick: nothing is ever sent, whatever fires later. */
  lemma CancelSilences(s: State, before: seq<Clock>, after: seq<Clock>, p: Restart)
    requires Valid(s) && |before| < 10
    ensures var h := s.nextHandle;
            var r := Run(s, [TriggerSos] + Ticks(h, before) + [CancelSos] + Ticks(h, after), p);
            && Count(r.out, SosEmit) == 0 && Count(r.out, SosPost) == 0 && Count(r.out, SosLog) == 0
            && h !in r.next.timers && !r.next.sosModalOpen
  {
    var h := s.nextHandle;
    var head := [TriggerSos] + Ticks(h, before);
    SosTiming(s, before, p);
    var r1 := Run(s, head, p);
    var c := Sos.Cancel(r1.next);
    RunAppend(r1.next, [CancelSos], Ticks(h, after), p);
    assert Run(r1.next, [CancelSos], p) == Step(c.next, c.out);
    ClearedTimerIsSilent(c.next, h, after, p);
    RunAppend(s, head, [CancelSos] + Ticks(h, after), p);
    assert head + [CancelSos] + Ticks(h, after) == head + ([CancelSos] + Ticks(h, after));
    assert c.out + [] == c.out;
    CountAppend(r1.out, c.out, SosEmit);
    CountAppend(r1.out, c.out, SosPost);
    CountAppend(r1.out, c.out, SosLog);
  }

  /** Trigger, trigger again, cancel: the second countdown is cleared, the
      first is still live with its full count, and nothing has been sent. */
  lemma DoubleTriggerThenCancel(s: State)
    requires Valid(s)
    ensures var h := s.nextHandle;
            var r := Run(s, [TriggerSos, TriggerSos, CancelSos], Overwrite);
            && h in r.next.timers && r.next.timers[h] == SosCountdown(10)
            && r.next.sosInterval == Some(h + 1) && h + 1 !in r.next.timers
            && r.next.userLocation == s.userLocation
            && Count(r.out, SosEmit) == 0 && Count(r.out, SosPost) == 0 && Count(r.out, SosLog) == 0
  {
    var a := Sos.Trigger(s, Overwrite);
    var b := Sos.Trigger(a.next, Overwrite);
    var c := Sos.Cancel(b.next);
    assert [TriggerSos, TriggerSos, CancelSos] == [TriggerSos] + ([TriggerSos] + [CancelSos]);
    assert Run(b.next, [CancelSos], Overwrite) == c by {
      RunOne(b.next, CancelSos, Overwrite);
    }
    assert Run(a.next, [TriggerSos] + [CancelSos], Overwrite) == Step(c.next, c.out) by {
      RunOne(a.next, TriggerSos, Overwrite);
      RunAppend(a.next, [TriggerSos], [CancelSos], Overwrite);
    }
    assert Run(s, [TriggerSos] + ([TriggerSos] + [CancelSos]), Overwrite) == Step(c.next, c.out) by {
      RunOne(s, TriggerSos, Overwrite);
      RunAppend(s, [TriggerSos], [TriggerSos] + [CancelSos], Overwrite);
    }
  }

  /** As the page is written, a second trigger reassigns the handle variable
      without clearing the first countdown. Cancel then stops only the second:
      the first still sends the alert on its tenth tick and, since nothing can
      clear it any more, sends it again on every tick after that. */
  lemma CancelledDoubleTriggerStillAlerts(s: State, clocks: seq<Clock>)
    requires Valid(s) && |clocks| >= 10
    ensures var h := s.nextHandle;
            var r := Run(s, [TriggerSos, TriggerSos, CancelSos] + Ticks(h, clocks), Overwrite);
            && Count(r.out, SosEmit) == |clocks| - 9
            && Count(r.out, SosPost) == |clocks| - 9
            && Count(r.out, SosLog) == |clocks| - 9
  {
    var h := s.nextHandle;
    var head := [TriggerSos, TriggerSos, CancelSos];
    DoubleTriggerThenCancel(s);
    var r0 := Run(s, head, Overwrite);
    var rt := Run(r0.next, Ticks(h, clocks), Overwrite);
    RunAppend(s, head, Ticks(h, clocks), Overwrite);
    OrphanedCountdown(r0.next, h, clocks);
    CountAppend(r0.out, rt.out, SosEmit);
    CountAppend(r0.out, rt.out, SosPost);
    CountAppend(r0.out, rt.out, SosLog);
  }

  /** A full countdown the handle variable no longer names: silent for nine
      ticks, then an alert on the tenth and on every tick after it. */
  lemma OrphanedCountdown(u: State, h: nat, clocks: seq<Clock>)
    requires Valid(u) && h in u.timers && u.timers[h] == SosCountdown(10) && u.sosInterval != Some(h)
    requires |clocks| >= 10
    ensures var r := Run(u, Ticks(h, clocks), Overwrite);
            && Count(r.out, SosEmit) == |clocks| - 9
            && Count(r.out, SosPost) == |clocks| - 9
            && Count(r.out, SosLog) == |clocks| - 9
  {
    var first10, later := clocks[..10], clocks[10..];
    var rt := Run(u, Ticks(h, clocks), Overwrite);
    var r1 := Run(u, Ticks(h, first10), Overwrite);
    var r2 := Run(r1.next, Ticks(h, later), Overwrite);
    assert rt.out == r1.out + r2.out by {
      assert Ticks(h, clocks) == Ticks(h, first10) + Ticks(h, later);
      RunAppend(u, Ticks(h, first10), Ticks(h, later), Overwrite);
    }
    UntrackedCountdown(u, h, first10, Overwrite);
    Sos.AlertCounts(r1.out, u.userLocation, first10[9].now);
    LeakedCountdown(r1.next, h, later, Overwrite);
    CountAppend(r1.out, r2.out, SosEmit);
    CountAppend(r1.out, r2.out, SosPost);
    CountAppend(r1.out, r2.out, SosLog);
  }

  /** At most one countdown is live, and it is the one the handle variable names. */
  predicate SingleCountdown(s: State) {
    forall h :: h in SosTimers(s) ==> s.sosInterval == Some(h)
  }

  /** With a trigger that clears the previous countdown first, every event
      keeps at most one countdown live. */
  lemma ClearFirstKeepsSingleCountdown(s: State, e: Event)
    requires Valid(s) && SingleCountdown(s)
    ensures SingleCountdown(Apply(s, e, ClearFirst).next)
  {
    var r := Apply(s, e, ClearFirst);
    match e {
      case TriggerSos =>
        assert forall h :: h in r.next.timers && h != s.nextHandle ==> h in s.timers && r.next.timers[h] == s.timers[h];
      case ConfirmSos(_) =>
      case CancelSos =>
      case SetShareDuration(_) =>
        assert SosTimers(r.next) == SosTimers(s);
      case StartSharing(_) =>
      case StopSharing =>
        assert SosTimers(r.next) == SosTimers(s);
      case ToggleJourney(_, _) =>
      case Relocate(_) =>
        assert SosTimers(r.next) == SosTimers(s);
      case Fire(h, clock) =>
        if h in s.timers && s.timers[h].SosCountdown? {
          assert h in SosTimers(s);
        } else if h in s.timers && s.timers[h].JourneyTicker? {
          assert SosTimers(r.next) == SosTimers(s);
        }
    }
  }

  lemma {:induction false} ClearFirstRunKeepsSingleCountdown(s: State, events: seq<Event>)
    requires Valid(s) && SingleCountdown(s)
    ensures SingleCountdown(Run(s, events, ClearFirst).next)
    decreases |events|
  {
    if events != [] {
      var first := Apply(s, events[0], ClearFirst);
      ClearFirstKeepsSingleCountdown(s, events[0]);
      ClearFirstRunKeepsSingleCountdown(first.next, events[1..]);
    }
  }

  /** With no countdown live, any event but a trigger or a confirm sends no
      part of an alert and starts no countdown. */
  lemma QuietStep(s: State, e: Event, p: Restart)
    requires Valid(s) && SosTimers(s) == map[]
    requires !e.TriggerSos? && !e.ConfirmSos?
    ensures var r := Apply(s, e, p);
            && SosTimers(r.next) == map[]
            && Count(r.out, SosEmit) == 0 && Count(r.out, SosPost) == 0 && Count(r.out, SosLog) == 0
  {
    match e {
      case CancelSos =>
        var c := Sos.Cancel(s);
        NoCountdownInSubset(s, c.next);
        NoAlertPart(c.out);
        assert Apply(s, e, p) == c;
      case SetShareDuration(minutes) =>
        var c := Sharing.SetDuration(s, minutes);
        assert SosTimers(c.next) == SosTimers(s);
        assert Apply(s, e, p) == c;
      case StartSharing(now) =>
        var c := Sharing.Start(s, now, p);
        NoAlertPart(c.out);
        assert Apply(s, e, p) == c;
      case StopSharing =>
        var c := Sharing.Stop(s);
        NoCountdownInSubset(s, c.next);
        NoAlertPart(c.out);
        assert Apply(s, e, p) == c;
      case ToggleJourney(destination, now) =>
        var c := Journeys.Toggle(s, destination, now);
        NoAlertPart(c.out);
        assert Apply(s, e, p) == c;
      case Relocate(position) =>
        assert SosTimers(s.(userLocation := position)) == SosTimers(s);
        assert Apply(s, e, p) == Step(s.(userLocation := position), []);
      case Fire(h, clock) =>
        QuietFire(s, h, clock);
        assert Apply(s, e, p) == FireTimer(s, h, clock);
    }
  }

  /** Outputs of the share and journey flows hold no part of an alert. */
  lemma NoAlertPart(out: seq<Output>)
    requires forall c :: c != Notice && c != CheckinLog && c != ShareEmit && c != JourneyEmit && c != JourneyLog ==> Count(out, c) == 0
    ensures Count(out, SosEmit) == 0 && Count(out, SosPost) == 0 && Count(out, SosLog) == 0
  {
  }

  /** Dropping timers starts no countdown. */
  lemma NoCountdownInSubset(a: State, b: State)
    requires SosTimers(a) == map[]
    requires forall h :: h in b.timers ==> h in a.timers && b.timers[h] == a.timers[h]
    ensures SosTimers(b) == map[]
  {
    assert forall h :: h in a.timers ==> h !in SosTimers(a);
  }

  /** A firing, with no countdown live, sends no part of an alert and starts
      no countdown. */
  lemma QuietFire(s: State, h: nat, clock: Clock)
    requires Valid(s) && SosTimers(s) == map[]
    ensures var r := FireTimer(s, h, clock);
            && SosTimers(r.next) == map[]
            && Count(r.out, SosEmit) == 0 && Count(r.out, SosPost) == 0 && Count(r.out, SosLog) == 0
  {
    var r := FireTimer(s, h, clock);
    if h in s.timers {
      assert h !in SosTimers(s);
      if s.timers[h].JourneyTicker? {
        assert SosTimers(r.next) == SosTimers(s);
      }
    }
  }

  lemma {:induction false} QuietRun(s: State, events: seq<Event>, p: Restart)
    requires Valid(s) && SosTimers(s) == map[]
    requires forall i :: 0 <= i < |events| ==> !events[i].TriggerSos? && !events[i].ConfirmSos?
    ensures var r := Run(s, events, p);
            Count(r.out, SosEmit) == 0 && Count(r.out, SosPost) == 0 && Count(r.out, SosLog) == 0
    decreases |events|
  {
    if events != [] {
      var first := Apply(s, events[0], p);
      QuietStep(s, events[0], p);
      QuietRun(first.next, events[1..], p);
      var rest := Run(first.next, events[1..], p);
      CountAppend(first.out, rest.out, SosEmit);
      CountAppend(first.out, rest.out, SosPost);
      CountAppend(first.out, rest.out, SosLog);
    }
  }

  /** When at most one countdown is live, a cancel stops the alert for good:
      until the next trigger or confirm, nothing is sent. */
  lemma CancelIsFinal(s: State, events: seq<Event>, p: Restart)
    requires Valid(s) && SingleCountdown(s)
    requires forall i :: 0 <= i < |events| ==> !events[i].TriggerSos? && !events[i].ConfirmSos?
    ensures var r := Run(s, [CancelSos] + events, p);
            Count(r.out, SosEmit) == 0 && Count(r.out, SosPost) == 0 && Count(r.out, SosLog) == 0
  {
    var c := Sos.Cancel(s);
    assert forall h :: h in c.next.timers ==> h in s.timers && c.next.timers[h] == s.timers[h];
    assert SosTimers(c.next) == map[];
    RunAppend(s, [CancelSos], events, p);
    assert Run(s, [CancelSos], p) == Step(c.next, c.out + []);
    assert c.out + [] == c.out;
    QuietRun(c.next, events, p);
    var rest := Run(c.next, events, p);
    CountAppend(c.out, rest.out, SosEmit);
    CountAppend(c.out, rest.out, SosPost);
    CountAppend(c.out, rest.out, SosLog);
  }

  /** Two clearing triggers send nothing and leave a single countdown. */
  lemma ClearFirstTriggerTwice(s: State)
    requires Valid(s) && SingleCountdown(s)
    ensures var r := Run(s, [TriggerSos, TriggerSos], ClearFirst);
            r.out == [] && SingleCountdown(r.next)
  {
    var a := Sos.Trigger(s, ClearFirst);
    var b := Sos.Trigger(a.next, ClearFirst);
    assert [TriggerSos, TriggerSos] == [TriggerSos] + [TriggerSos];
    assert Run(a.next, [TriggerSos], ClearFirst) == b by {
      RunOne(a.next, TriggerSos, ClearFirst);
    }
    assert Run(s, [TriggerSos] + [TriggerSos], ClearFirst) == Step(b.next, []) by {
      RunOne(s, TriggerSos, ClearFirst);
      RunAppend(s, [TriggerSos], [TriggerSos], ClearFirst);
    }
    ClearFirstRunKeepsSingleCountdown(s, [TriggerSos, TriggerSos]);
  }

  /** Corrected trigger: clearing the previous countdown first, the same
      trigger, trigger, cancel sequence sends nothing, however long the first
      handle keeps being fired. */
  lemma ClearFirstDoubleTriggerCancelled(s: State, clocks: seq<Clock>)
    requires Valid(s) && SingleCountdown(s)
    ensures var h := s.nextHandle;
            var r := Run(s, [TriggerSos, TriggerSos, CancelSos] + Ticks(h, clocks), ClearFirst);
            Count(r.out, SosEmit) == 0 && Count(r.out, SosPost) == 0 && Count(r.out, SosLog) == 0
  {
    var h := s.nextHandle;
    var triggers := [TriggerSos, TriggerSos];
    var rest := [CancelSos] + Ticks(h, clocks);
    var r0 := Run(s, triggers, ClearFirst);
    ClearFirstTriggerTwice(s);
    var r1 := Run(r0.next, rest, ClearFirst);
    CancelIsFinal(r0.next, Ticks(h, clocks), ClearFirst);
    assert triggers + rest == [TriggerSos, TriggerSos, CancelSos] + Ticks(h, clocks);
    RunAppend(s, triggers, rest, ClearFirst);
    assert [] + r1.out == r1.out;
  }

  /** The alerts a session asks for: its triggers and its confirms. */
  function AlertRequests(events: seq<Event>): (n: nat)
    ensures n <= |events|
    ensures n == 0 <==> forall i :: 0 <= i < |events| ==> !events[i].TriggerSos? && !events[i].ConfirmSos?
    decreases |events|
  {
    if events == [] then 0
    else
      var rest := AlertRequests(events[1..]);
      assert forall i :: 1 <= i < |events| ==> events[i] == events[1..][i - 1];
      (if events[0].TriggerSos? || events[0].ConfirmSos? then 1 else 0) + rest
  }

  lemma {:induction false} AlertRequestsAppend(a: seq<Event>, b: seq<Event>)
    ensures AlertRequests(a + b) == AlertRequests(a) + AlertRequests(b)
    decreases |a|
  {
    if a == [] {
      assert a + b == b;
    } else {
      assert (a + b)[0] == a[0] && (a + b)[1..] == a[1..] + b;
      AlertRequestsAppend(a[1..], b);
    }
  }

  /** The alerts still to come from the countdown the handle variable names:
      one while it is live, none otherwise. */
  function Pending(s: State): nat {
    if s.sosInterval.Some? && s.sosInterval.value in SosTimers(s) then 1 else 0
  }

  /** Dropping timers adds nothing pending. */
  lemma PendingInSubset(a: State, b: State)
    requires b.sosInterval == a.sosInterval
    requires forall h :: h in b.timers ==> h in a.timers && b.timers[h] == a.timers[h]
    ensures Pending(b) <= Pending(a)
  {
    if Pending(b) == 1 {
      assert a.sosInterval.value in SosTimers(a);
    }
  }

  /** Every alert part step `r` sends from state `s` is paid for by the
      countdown pending in `s` or by the `asked` alerts the step was asked
      for, and what stays pending after it is paid for the same way. */
  predicate Paid(s: State, r: Step, asked: nat) {
    && Count(r.out, SosEmit) + Pending(r.next) <= Pending(s) + asked
    && Count(r.out, SosPost) + Pending(r.next) <= Pending(s) + asked
    && Count(r.out, SosLog) + Pending(r.next) <= Pending(s) + asked
  }

  /** A firing under the clearing trigger: a countdown alerts only when it is
      the pending one, and then it is pending no more. */
  lemma ClearFirstAlertFire(s: State, h: nat, clock: Clock)
    requires Valid(s) && SingleCountdown(s)
    ensures Paid(s, FireTimer(s, h, clock), 0)
  {
    var r := FireTimer(s, h, clock);
    if h in s.timers {
      match s.timers[h]
      case SosCountdown(c) =>
        assert h in SosTimers(s);
        assert Pending(s) == 1;
        assert r == Sos.Tick(s, h, clock.now);
        if c - 1 <= 0 {
          Sos.AlertCounts(r.out, s.userLocation, clock.now);
          assert h !in r.next.timers;
        }
      case ShareTicker(_) =>
        assert r == Sharing.Tick(s, h, clock.now);
        NoAlertPart(r.out);
      case JourneyTicker =>
        assert SosTimers(r.next) == SosTimers(s);
    }
  }

  /** A step of another flow sends no alert part and adds nothing pending. */
  lemma OtherFlowPaid(s: State, r: Step)
    requires Pending(r.next) <= Pending(s)
    requires forall c :: c != Notice && c != CheckinLog && c != ShareEmit && c != JourneyEmit && c != JourneyLog ==> Count(r.out, c) == 0
    ensures Paid(s, r, 0)
  {
    NoAlertPart(r.out);
  }

  /** One event under the clearing trigger: every alert part it sends is paid
      for by the pending countdown or by the event being a trigger or confirm. */
  lemma ClearFirstAlertStep(s: State, e: Event)
    requires Valid(s) && SingleCountdown(s)
    ensures Paid(s, Apply(s, e, ClearFirst), if e.TriggerSos? || e.ConfirmSos? then 1 else 0)
  {
    match e {
      case TriggerSos =>
        var c := Sos.Trigger(s, ClearFirst);
        assert Paid(s, c, 1);
        assert Apply(s, e, ClearFirst) == c;
      case ConfirmSos(now) =>
        var c := Sos.Confirm(s, now);
        Sos.AlertCounts(c.out, s.userLocation, now);
        assert Pending(c.next) == 0;
        assert Paid(s, c, 1);
        assert Apply(s, e, ClearFirst) == c;
      case CancelSos =>
        var c := Sos.Cancel(s);
        PendingInSubset(s, c.next);
        OtherFlowPaid(s, c);
        assert Apply(s, e, ClearFirst) == c;
      case SetShareDuration(minutes) =>
        var c := Sharing.SetDuration(s, minutes);
        assert SosTimers(c.next) == SosTimers(s);
        OtherFlowPaid(s, c);
        assert Apply(s, e, ClearFirst) == c;
      case StartSharing(now) =>
        var c := Sharing.Start(s, now, ClearFirst);
        OtherFlowPaid(s, c);
        assert Apply(s, e, ClearFirst) == c;
      case StopSharing =>
        var c := Sharing.Stop(s);
        PendingInSubset(s, c.next);
        OtherFlowPaid(s, c);
        assert Apply(s, e, ClearFirst) == c;
      case ToggleJourney(destination, now) =>
        var c := Journeys.Toggle(s, destination, now);
        OtherFlowPaid(s, c);
        assert Apply(s, e, ClearFirst) == c;
      case Relocate(position) =>
        var c := Step(s.(userLocation := position), []);
        assert SosTimers(c.next) == SosTimers(s);
        OtherFlowPaid(s, c);
        assert Apply(s, e, ClearFirst) == c;
      case Fire(h, clock) =>
        ClearFirstAlertFire(s, h, clock);
        assert Apply(s, e, ClearFirst) == FireTimer(s, h, clock);
    }
  }

  lemma {:induction false} ClearFirstAlertBound(s: State, events: seq<Event>)
    requires Valid(s) && SingleCountdown(s)
    ensures var r := Run(s, events, ClearFirst);
            && Count(r.out, SosEmit) + Pending(r.next) <= Pending(s) + AlertRequests(events)
            && Count(r.out, SosPost) + Pending(r.next) <= Pending(s) + AlertRequests(events)
            && Count(r.out, SosLog) + Pending(r.next) <= Pending(s) + AlertRequests(events)
    decreases |events|
  {
    if events != [] {
      var first := Apply(s, events[0], ClearFirst);
      var rest := Run(first.next, events[1..], ClearFirst);
      RunFirst(s, events, ClearFirst);
      ClearFirstAlertStep(s, events[0]);
      ClearFirstKeepsSingleCountdown(s, events[0]);
      ClearFirstAlertBound(first.next, events[1..]);
      CountAppend(first.out, rest.out, SosEmit);
      CountAppend(first.out, rest.out, SosPost);
      CountAppend(first.out, rest.out, SosLog);
    }
  }

  /** Corrected trigger: from the page as loaded, whatever happens between the
      countdown's ticks (journey ticks, share ticks, position fixes, other
      user actions), a session sends at most one alert per trigger or confirm. */
  lemma ClearFirstAlertsAtMostRequested(events: seq<Event>)
    ensures var r := Run(Init, events, ClearFirst);
            && Count(r.out, SosEmit) <= AlertRequests(events)
            && Count(r.out, SosPost) <= AlertRequests(events)
            && Count(r.out, SosLog) <= AlertRequests(events)
  {
    assert SosTimers(Init) == map[];
    ClearFirstAlertBound(Init, events);
  }

  /** As written, the same bound fails: trigger, trigger, cancel asks for two
      alerts, and twelve or more firings of the first handle send more. */
  lemma OverwriteOutrunsRequests(s: State, clocks: seq<Clock>)
    requires Valid(s) && |clocks| >= 12
    ensures var events := [TriggerSos, TriggerSos, CancelSos] + Ticks(s.nextHandle, clocks);
            && AlertRequests(events) == 2
            && Count(Run(s, events, Overwrite).out, SosEmit) > AlertRequests(events)
  {
    var head := [TriggerSos, TriggerSos, CancelSos];
    var ticks := Ticks(s.nextHandle, clocks);
    assert AlertRequests(ticks) == 0;
    assert head[1..] == [TriggerSos, CancelSos] && head[1..][1..] == [CancelSos] && head[1..][1..][1..] == [];
    assert AlertRequests(head) == 2;
    AlertRequestsAppend(head, ticks);
    CancelledDoubleTriggerStillAlerts(s, clocks);
  }
}

=== FILE: text.dfy ===
/** Decimal rendering and left padding of integers, as JavaScript's
    `Number.prototype.toString()` and `String.prototype.padStart` do them
    for the integral values the session controller formats. */
module Text {

  predicate IsDigit(c: char) {
    '0' <= c <= '9'
  }

  predicate IsDigits(s: string) {
    forall i :: 0 <= i < |s| ==> IsDigit(s[i])
  }

  function DigitChar(d: nat): (c: char)
    requires d < 10
    ensures IsDigit(c)
    ensures c as int - '0' as int == d
  {
    ('0' as int + d) as char
  }

  function DigitValue(c: char): nat
    requires IsDigit(c)
  {
    c as int - '0' as int
  }

  /** The value a string of decimal digits denotes (most significant first). */
  function DecimalValue(s: string): nat
    requires IsDigits(s)
  {
    if s == [] then 0 else 10 * DecimalValue(s[..|s| - 1]) + DigitValue(s[|s| - 1])
  }

  /** Decimal digits as `toString` writes them: at least one, and no leading
      zero unless the text is "0" itself. */
  predicate Canonical(s: string) {
    |s| >= 1 && IsDigits(s) && (s[0] == '0' ==> |s| == 1)
  }

  /** Canonical decimal text of a natural number: non-empty, digits only,
      no leading zero except for zero itself. */
  function NatToDecimal(n: nat): (r: string)
    ensures |r| >= 1 && IsDigits(r)
    ensures r[0] == '0' <==> n == 0
    ensures |r| == 1 <==> n < 10
    ensures n < 100 ==> |r| <= 2
  {
    if n < 10 then [DigitChar(n)] else NatToDecimal(n / 10) + [DigitChar(n % 10)]
  }

  /** Decimal text of an integer: a minus sign precedes the magnitude of a
      negative value, and the digits have no leading zero except for zero itself. */
  function IntToString(i: int): (r: string)
    ensures i >= 0 ==> Canonical(r) && DecimalValue(r) == i
    ensures i < 0 ==> |r| >= 2 && r[0] == '-' && Canonical(r[1..]) && DecimalValue(r[1..]) == -i && r[1] != '0'
  {
    DecimalRoundTrip(if i < 0 then -i else i);
    if i < 0 then "-" + NatToDecimal(-i) else NatToDecimal(i)
  }

  lemma {:induction false} DecimalRoundTrip(n: nat)
    ensures DecimalValue(NatToDecimal(n)) == n
  {
    if n >= 10 {
      var r := NatToDecimal(n);
      assert r[..|r| - 1] == NatToDecimal(n / 10);
      DecimalRoundTrip(n / 10);
    }
  }

  /** A digit string with a non-zero first digit denotes a positive number. */
  lemma {:induction false} LeadingDigitPositive(s: string)
    requires |s| >= 1 && IsDigits(s) && s[0] != '0'
    ensures DecimalValue(s) >= 1
    decreases |s|
  {
    if |s| > 1 {
      LeadingDigitPositive(s[..|s| - 1]);
    } else {
      assert s[..0] == [];
    }
  }

  /** Canonical text is determined by its value: it is `NatToDecimal` of it. */
  lemma {:induction false} CanonicalDecimal(t: string)
    requires Canonical(t)
    ensures t == NatToDecimal(DecimalValue(t))
    decreases |t|
  {
    var n := DecimalValue(t);
    if |t| == 1 {
      assert t[..0] == [] && DecimalValue(t[..0]) == 0;
      assert n == DigitValue(t[0]) < 10;
    } else {
      var head := t[..|t| - 1];
      LeadingDigitPositive(head);
      CanonicalDecimal(head);
      assert n / 10 == DecimalValue(head) && n % 10 == DigitValue(t[|t| - 1]);
      assert t == head + [t[|t| - 1]];
    }
  }

  /** `IntToString` of a non-negative value is the only canonical digit text
      denoting it, so its contract fixes the text `toString` produces. */
  lemma ToStringUnique(i: int, t: string)
    requires i >= 0 && Canonical(t) && DecimalValue(t) == i
    ensures t == IntToString(i)
  {
    CanonicalDecimal(t);
  }

  function Repeat(c: char, n: nat): (r: string)
    ensures |r| == n
    ensures forall i :: 0 <= i < n ==> r[i] == c
  {
    if n == 0 then [] else Repeat(c, n - 1) + [c]
  }

  /** `s.padStart(width, c)` with a one-character pad string. */
  function PadStart(s: string, width: nat, c: char): (r: string)
    ensures |r| == if |s| >= width then |s| else width
    ensures r[|r| - |s|..] == s
    ensures forall i :: 0 <= i < |r| - |s| ==> r[i] == c
  {
    if |s| >= width then s else Repeat(c, width - |s|) + s
  }

  /** A number below 100 padded to width two reads back as exactly two digits of its value. */
  lemma TwoDigitsRoundTrip(n: nat)
    requires n < 100
    ensures var t := PadStart(NatToDecimal(n), 2, '0');
            |t| == 2 && IsDigits(t) && DecimalValue(t) == n
  {
    var d := NatToDecimal(n);
    var t := PadStart(d, 2, '0');
    DecimalRoundTrip(n);
    if n < 10 {
      assert t == ['0'] + d;
      assert t[..1] == ['0'];
      assert t[1..] == d;
    } else {
      assert t == d;
    }
  }
}
